=== FILE: README.md ===
# MapReduceExec orchestrator, modelled in Dafny

MapReduceExec runs a MapReduce job from `main.cpp`. It loads
seven plugin libraries one after the other: FileProcessorInput, MapperImpl,
FileProcessorMapOutput, ShufflerImpl, FileProcessorShufOutput, ReducerImpl
and FileProcessorRedOutput. For each library it resolves a factory
function, creates an instance from the previous stage's exposed output,
and runs it. Then it resolves the seven destroy factories, destroys the
seven instances and closes the seven handles. Finally it compares the
regular-file names of the input directory with those of the final output
directory. When they match it writes a `SUCCESS.ind` marker into the
output directory.

The model covers that orchestration:

- `Paths`: base-name extraction with `rfind('/')` and `substr`. This
  includes the `std::size_t` wrap of `npos + 1` to 0.
- `DirectoryChecks`: `fileDirectoryChecks`. A directory listing is a
  sequence of entries. The file system is a map from directory paths to
  listings; a path that is not a key is not a directory. The two loops are
  written once as a method and once as a pure function, and the method is
  proved equal to the function. `Verdict` is the two-way success decision.
- `Loader`: the fourteen factory types `createLibFunc` accepts, the
  library file of each stage, and `createLibFunc`'s two error checks:
  a null handle, and a symbol that does not resolve.
- `Lifecycle`: a run as a trace of events (open, lookup, create, run,
  read, destroy, close, write marker), and a per-stage phase protocol
  `Unloaded < Opened < Created < Ran < Destroyed < Closed`. Properties of
  every trace the protocol accepts are proved here.
- `Workflow`: `mapReduceWorkflow` as a function producing the trace and
  the result. It is proved to follow the protocol on every outcome.
- `Orchestration`: `runOrchestration`'s gating and the command-line entry
  point.

Runtime errors are `Result` values with an `Error` datatype. The plugins
are an abstract environment `Env`:

- the libraries that load, with their exported symbols;
- `behaviour(stage, input)`, what a stage does when its create factory is
  called on `input`. Its constructor raises, or its run operation raises,
  or the getter that exposes its output raises, or it exposes an output.
  Each failure ends the run where the source would raise it. A constructor
  failure comes right after the constructor's argument is read. A run
  failure comes right after the run call. An output-getter failure comes
  where the source first calls that getter. For the shuffler and the
  reducer this is as the next constructor's argument, after the next
  library was opened and its creator looked up. For every other stage it
  is right after the run, because the source prints that output before
  loading the next library.

The file system is seen twice. `runOrchestration` checks the input
directory before any plugin runs. The directory checks list both
directories after the plugins have run, so a plugin may have removed or
changed either directory in between.

Some behaviours of the code are easy to miss. The model follows the code:

- A run that fails before the destroy calls destroys nothing and closes no
  handle. The exception skips all the cleanup code.
- An input directory with no entries only prints a message. No error is
  raised.
- "There are missing files!" does not list the names the two checks found.
- `fileDirectoryChecks` lists `directory1` before it checks that
  `directory2` exists. A missing `directory1` therefore raises the
  iterator's own filesystem error, not "Output Directory not found!".
- Every `std::runtime_error` raised inside `mapReduceWorkflow` is caught
  and printed there (line 368). Of the errors the model has, only
  "Directory not found!" reaches `main`, whose own handler also catches
  only `std::runtime_error` (line 88).

## Model

| member | source | states |
|---|---|---|
| Paths.RFind | main.cpp:140-141 | `rfind` finds nothing exactly when the character is absent; otherwise the index holds the character and no later index does |
| Paths.AfterLast | main.cpp:141 | the substr start `rfind('/') + 1` is 0 when there is no '/' (npos + 1 wraps); otherwise the position just after the last '/' |
| Paths.BaseName | main.cpp:153-154 | the base name contains no '/', is a suffix of the path, and is preceded by a '/' when the path has one; a path without '/' is its own base name |
| Paths.BaseNameOfJoin | main.cpp:140-141 | the base name of `dir + "/" + file` is `file` for every file name without '/' |
| DirectoryChecks.Missing | main.cpp:151-163 | never more names than directory entries |
| DirectoryChecks.MissingMembership | main.cpp:151-163 | a name is reported exactly when it is the base name of a regular file of directory2 and absent from directory1's names |
| DirectoryChecks.MissingElements | main.cpp:151-163 | the same membership statement for every name at once |
| DirectoryChecks.MissingEmptyIff | main.cpp:151-163 | nothing is reported exactly when directory2's regular-file names are a subset of directory1's |
| DirectoryChecks.MissingInListingOrder | main.cpp:151-163 | reports follow the listing order of directory2: one report per unmatched regular entry, at increasing indices, and duplicates are reported again |
| DirectoryChecks.JoinedListingNames | main.cpp:137-144 | when every listed path is the directory joined with a '/'-free entry name, the collected base names are exactly the names of the regular entries |
| DirectoryChecks.RegularNamesSnoc | main.cpp:137-144 | adding an entry adds its base name to the name set exactly when it is a regular file |
| DirectoryChecks.Check | main.cpp:132-167 | fails when directory1 cannot be listed, and otherwise with "Output Directory not found!" when directory2 is not a directory; on success it reports exactly the names missing from directory1 |
| DirectoryChecks.ReportedNames | main.cpp:151-163 | the k-th reported name is the base name of the entry at the k-th reported position |
| DirectoryChecks.ReportedIncreasing | main.cpp:151-163 | reported positions are positions of directory2's listing, strictly increasing |
| DirectoryChecks.ReportedExactly | main.cpp:151-163 | a position is reported exactly when its entry is a regular file whose base name directory1 lacks |
| DirectoryChecks.CollectNames | main.cpp:137-144 | the first loop leaves the map holding exactly the base names of directory1's regular files |
| DirectoryChecks.CollectMissing | main.cpp:151-163 | the second loop collects exactly the reports of the functional definition, in the same order |
| DirectoryChecks.FileDirectoryChecks | main.cpp:132-167 | listing directory1, checking directory2 and listing it yields the same errors and reports as `Check` |
| DirectoryChecks.Verdict | main.cpp:355-365 | success exactly when both directories exist and hold the same regular-file names; otherwise the listing error, the missing-output-directory error or "There are missing files!" |
| DirectoryChecks.SuccessIffSameNames | main.cpp:355-359 | both directions report nothing exactly when the two name sets are equal |
| DirectoryChecks.ReportOrderIndependent | main.cpp:132-167 | the set of reported names depends only on the two directories' name sets, not on iteration order |
| Loader.Owner | main.cpp:36-52 | each of the fourteen factory types is the create or destroy factory of exactly one stage |
| Loader.CreateLibFunc | main.cpp:53-68 | a null handle raises "Cannot load library"; a symbol that does not resolve raises "Cannot load symbol" naming the file; otherwise the factory of the requested type is returned |
| Stages.Ordinal | main.cpp:173-283 | every stage has a unique position in the seven-stage pipeline |
| Stages.Prev | main.cpp:203-268 | every stage after the first takes its argument from the stage directly before it |
| Lifecycle.ReplayAppend | main.cpp:170-352 | checking a concatenated trace is checking its parts one after the other |
| Lifecycle.StepFrame | main.cpp:170-352 | one event changes only its own stage's phase and never moves it backwards |
| Lifecycle.ReplayMonotone | main.cpp:170-352 | phases never move backwards along a legal trace |
| Lifecycle.EventCount | main.cpp:170-352 | an Open, Run, Destroy or Close of a stage occurs once for each phase boundary the stage crosses, so at most once |
| Lifecycle.EventCounts | main.cpp:170-352 | the same count for all four event types of one stage |
| Lifecycle.NoDestroyOnceAllDestroyed | main.cpp:329-352 | once every instance is destroyed, no destroy follows |
| Lifecycle.DestroysBeforeCloses | main.cpp:329-352 | in a legal trace every destroy precedes every dlclose |
| Lifecycle.StepChained | main.cpp:173-283 | a stage past Opened implies every earlier stage has run, and every event keeps this |
| Lifecycle.NoCreateAtOrBefore | main.cpp:173-283 | once a stage is created, neither it nor an earlier stage is created again |
| Lifecycle.CreatedInPipelineOrder | main.cpp:173-283 | instances are created strictly in pipeline order |
| Lifecycle.LegalTraceOrdering | main.cpp:170-352 | a legal trace opens, runs, destroys and closes each stage at most once, creates in pipeline order, and destroys before closing |
| Lifecycle.CompleteTraceCounts | main.cpp:170-352 | a legal trace that ends with every handle closed opened, ran, destroyed and closed every stage exactly once |
| Lifecycle.RunAfterCreate | main.cpp:182-186 | every run of a stage in a legal trace is preceded by a create of that stage |
| Lifecycle.CompleteTraceCreates | main.cpp:170-352 | a legal trace that ends with every handle closed created every stage, and no stage twice |
| Lifecycle.PrefixReplay | main.cpp:170-352 | every event of a legal trace is allowed in the state its prefix reaches |
| Lifecycle.MoverInPrefix | main.cpp:170-352 | a stage that has reached a phase did so through the event that crosses into it, earlier in the trace |
| Lifecycle.EventsFollowPrerequisites | main.cpp:170-352 | lookups follow the open of their handle; a create follows the run of the previous stage; reads and destroys follow the stage's run; a close follows the stage's destroy |
| Lifecycle.InputsRecorded | main.cpp:182-280 | the input kept in a Created or Ran phase is the one the stage's create event carried |
| Lifecycle.InputsChain | main.cpp:182-283 | the first instance is created from the input directory; each later one from the output its predecessor produced on its own input; every output read is the one the stage produced |
| Workflow.Forward | main.cpp:173-284 | the forward pass: load, create, run and read each stage in turn, ending where a load or a plugin fails; its properties are carried by Workflow.ForwardFollowsProtocol (legal under the protocol, every stage run on success) and Workflow.ForwardEventKinds (no destroy, close or marker; only loader or stage errors) |
| Workflow.Teardown | main.cpp:286-352 | resolve every destroy factory, then destroy and close every stage in pipeline order; its properties are carried by Workflow.TeardownFollowsProtocol (legal after the forward pass, all-closed when complete) and Workflow.TeardownEventKinds |
| Workflow.MapReduceWorkflow | main.cpp:170-371 | the whole workflow and its success decision; its properties are carried by Workflow.WorkflowFollowsProtocol, Workflow.RunLifecycle and Workflow.SuccessDecision |
| Workflow.LoadCreator | main.cpp:173-180 | loading a stage's creator succeeds exactly when its library loads and exports "createInputObj"; a library that does not load raises "Cannot load library" |
| Workflow.LoadFollowsProtocol | main.cpp:173-180 | loading a creator is allowed from an unloaded stage; it leaves the stage opened when dlopen returns a handle, whether or not the symbol resolves, and leaves the state unchanged when dlopen fails |
| Workflow.ArgumentFollowsProtocol | main.cpp:203 | reading the previous stage's exposed output as the constructor's argument is allowed and changes no phase |
| Workflow.BuildFollowsProtocol | main.cpp:182-186 | reading the previous output, creating and running a stage leaves it in Ran with that input |
| Workflow.StageFollowsProtocol | main.cpp:173-186 | a whole stage step of the forward pass is allowed by the protocol |
| Workflow.NextStageReady | main.cpp:203-268 | after stage i runs, stage i+1 is ready to take its output |
| Workflow.ForwardFollowsProtocol | main.cpp:173-284 | the forward pass is legal from any state where the current stage is ready, and a completed pass leaves every stage in Ran |
| Workflow.CreateFailurePlacement | main.cpp:182-184 | a constructor that raises ends the run with the stage neither created nor run, and its output never read |
| Workflow.RunFailurePlacement | main.cpp:186 | a run operation that raises ends the run right after the run call, with the stage's output never read |
| Workflow.OutputFailurePlacement | main.cpp:188-283 | an output getter that raises ends the run right after the stage's run, except for the shuffler and the reducer; for those the next library has been opened and its creator looked up first |
| Workflow.LookupsFollowProtocol | main.cpp:286-327 | resolving the destroy factories on the open handles is legal and changes no phase |
| Workflow.DestroysFollowProtocol | main.cpp:329-336 | destroying the seven instances in order takes every stage from Ran to Destroyed |
| Workflow.ClosesFollowProtocol | main.cpp:338-352 | closing the seven handles in order takes every stage from Destroyed to Closed |
| Workflow.TeardownFollowsProtocol | main.cpp:286-352 | the teardown is legal after the forward pass, and a complete teardown closes every handle |
| Workflow.CompletedRunFollowsProtocol | main.cpp:355-362 | a legal pass followed by a full teardown reaches the all-closed state, and writing the marker there is legal |
| Workflow.WorkflowFollowsProtocol | main.cpp:170-371 | every run is legal under the protocol whatever its outcome, and a successful one ends with every handle closed |
| Workflow.StageEventKinds | main.cpp:173-186 | a stage step emits no destroy, close or marker |
| Workflow.ForwardEventKinds | main.cpp:173-284 | the forward pass never destroys, closes or writes the marker, and fails only with a loader or stage error |
| Workflow.LookupEventKinds | main.cpp:286-327 | resolving destroyers only looks symbols up, and fails only with a loader error |
| Workflow.DestroysAndClosesKinds | main.cpp:329-352 | the destroy sequence holds only destroys, and the close sequence only closes |
| Workflow.TeardownEventKinds | main.cpp:286-352 | teardown never writes the marker, and when it fails it has only looked symbols up |
| Workflow.SuccessDecision | main.cpp:355-365 | a run succeeds only if the input and final output directories hold the same regular-file names; once all stages ran and were torn down that is also sufficient, and a mismatch, a missing output directory or an input directory that can no longer be listed fails it with the matching error |
| Workflow.MarkerOnlyOnSuccess | main.cpp:358-362 | SUCCESS.ind is written only as the last event of a successful run, into its final output directory |
| Workflow.PipelineFailureLeaks | main.cpp:170-371 | a run failing while loading or resolving a library, or in a stage's constructor, run or output getter, has destroyed nothing, closed nothing and written no marker |
| Workflow.CheckFailureClosed | main.cpp:352-365 | a run failing in the directory checks has already closed every handle |
| Workflow.RunLifecycle | main.cpp:170-371 | every run opens, runs, destroys and closes each stage at most once, creates in order from the input directory and then each predecessor's output, reads only after running, and destroys before closing |
| Workflow.SuccessLifecycle | main.cpp:170-362 | a successful run opened, ran, destroyed and closed each of the seven stages exactly once, and created each of them exactly once (so, with the creation order of Workflow.RunLifecycle, all seven in pipeline order) |
| Orchestration.RunOrchestration | main.cpp:109-129 | "Directory not found!" exactly when the path is not a directory when the program starts; nothing is processed exactly when the directory then has no entries; otherwise the outcome is exactly the workflow's, run on the input directory with its directory checks seeing the file system after the plugins have run |
| Orchestration.SuccessfulProgram | main.cpp:73-129 | a marked success means an input directory with entries at the start, equal name sets of the input and output directories afterwards, the marker as the last event, and each stage opened, ran, destroyed and closed exactly once |
| Orchestration.CompletedPipelineDecides | main.cpp:109-129 | for an input directory with entries at the start whose pipeline completes, the file system afterwards alone decides between success, "There are missing files!", the missing-output-directory error and the listing error for an input directory a plugin removed |

## Left out

- Workflow.Teardown: a destroy factory that raises is not modelled. In the source the destroy calls at lines 330-336 run plugin code inside the `try` block; a `std::runtime_error` from one of them is caught at line 368 after the earlier stages' instances were destroyed, and no handle is closed. The model's teardown either destroys all seven instances or, when a destroy factory cannot be resolved, none.
- `dlopen`, `dlsym` and `dlerror` are left out. A library either loads, with a set of exported symbols, or does not. The text of `dlerror` is not kept.
- Console output is left out. This covers the debug loops in `mapReduceWorkflow` (lines 188-192, 205-208, 213-218) and the progress messages. The getter calls these lines make are kept only as the point where an output getter raises. Repeated calls of the same getter are assumed to behave alike.
- The plugins' behaviour is left out: mapping, shuffling, reducing, and the files they write. A stage is an opaque function from its input to one of the four behaviours above.
- `StageFailed` stands for a `std::runtime_error`, including `std::filesystem::filesystem_error`, raised by a plugin. Any other exception a plugin throws, such as `std::bad_alloc` or `std::logic_error`, escapes both handlers (lines 368 and 88) and terminates the program. That case is not modelled.
- The mapper's debug getter `getProcessedDirectory` (lines 206-208) runs between the mapper's construction and its run. A raise there is not a behaviour of its own: the model offers only a constructor failure (no instance) or a run failure (run called).
- Error messages are reduced to an `Error` constructor with the path, file or symbol they name.
- `main`'s return value is left out; it is always 0.
- Writing `SUCCESS.ind` is a `WriteMarker` event. Its effect on the file system, and whether the file can be created, are left out.
- The file system is two snapshots: one before the run, for `runOrchestration`, and one after the plugins have run, for the directory checks. A change between the two listings of one check, or by another process during a single listing, is not modelled. Symbolic links and `is_regular_file` resolution are reduced to an `isRegular` flag on each entry.
- Every directory that exists is assumed listable. A `directory_iterator` that fails on an existing directory (permission denied, an I/O error) at lines 116, 138 and 151 is not modelled. At line 116 its `filesystem_error` would escape `runOrchestration` to `main` before the workflow starts; at lines 138 and 151 it would be caught at line 368 in place of a report.
- Paths.AfterLast: the wrap of `npos + 1` is modelled, but strings of length 2^64 or more are not.

=== FILE: directory_checks.dfy ===
/**
 * fileDirectoryChecks: the files of one directory whose names another
 * directory lacks, and the two-way comparison that decides whether a run
 * succeeded.
 */
module DirectoryChecks {
  import opened Wrappers
  import opened Stages
  import opened Paths

  /** One entry of a directory listing. */
  datatype Entry = Entry(path: string, isRegular: bool)

  /** A directory listing, in the (unspecified) order the iterator yields it. */
  type Listing = seq<Entry>

  /**
   * A snapshot of the file system: every directory maps to its listing;
   * a path that is not a key is not a directory.
   */
  type FileSystem = map<string, Listing>

  /** The base names of the regular files of a listing. */
  function RegularNames(l: Listing): set<string>
  {
    set e | e in RegularEntries(l) :: BaseName(e.path)
  }

  /** An entry is reported when it is a regular file whose base name is not in `names`. */
  predicate Unmatched(names: set<string>, e: Entry)
  {
    e.isRegular && BaseName(e.path) !in names
  }

  /** The reported base names of `l`, in listing order. */
  function Missing(names: set<string>, l: Listing): (r: seq<string>)
    ensures |r| <= |l|
    decreases |l|
  {
    if |l| == 0 then []
    else
      var last := l[|l| - 1];
      Missing(names, l[..|l| - 1]) + (if Unmatched(names, last) then [BaseName(last.path)] else [])
  }

  /** The listing positions Missing reports, in increasing order. */
  function Reported(names: set<string>, l: Listing): seq<nat>
    decreases |l|
  {
    if |l| == 0 then []
    else Reported(names, l[..|l| - 1]) + (if Unmatched(names, l[|l| - 1]) then [|l| - 1] else [])
  }

  /** The regular-file entries of a listing. */
  function RegularEntries(l: Listing): set<Entry>
  {
    set e | e in l && e.isRegular
  }

  lemma {:induction false} RegularEntriesSnoc(l: Listing, e: Entry)
    ensures RegularEntries(l + [e]) == RegularEntries(l) + (if e.isRegular then {e} else {})
  {
    var le := l + [e];
    forall x | x in le ensures x in l || x == e {
      var k :| 0 <= k < |le| && le[k] == x;
      if k < |l| {
        assert l[k] == x;
      }
    }
    forall x | x in l ensures x in le {
      var k :| 0 <= k < |l| && l[k] == x;
      assert le[k] == x;
    }
    assert le[|l|] == e;
  }

  lemma {:induction false} RegularNamesSnoc(l: Listing, e: Entry)
    ensures RegularNames(l + [e]) == RegularNames(l) + (if e.isRegular then {BaseName(e.path)} else {})
  {
    RegularEntriesSnoc(l, e);
    var le := l + [e];
    var lhs, rhs := RegularNames(le), RegularNames(l) + (if e.isRegular then {BaseName(e.path)} else {});
    forall x | x in lhs ensures x in rhs {
      var e' :| e' in RegularEntries(le) && BaseName(e'.path) == x;
    }
    forall x | x in rhs ensures x in lhs {
      if x in RegularNames(l) {
        var e' :| e' in RegularEntries(l) && BaseName(e'.path) == x;
        assert e' in RegularEntries(le);
      } else {
        assert e in RegularEntries(le);
      }
    }
  }

  /**
   * A directory iterator yields `dir + "/" + name` for each entry: the base
   * names collected from such a listing are exactly the entry names of its
   * regular files.
   */
  lemma {:induction false} JoinedListingNames(dir: string, l: Listing, names: seq<string>)
    requires |l| == |names|
    requires forall k :: 0 <= k < |l| ==> l[k].path == dir + "/" + names[k] && '/' !in names[k]
    ensures RegularNames(l) == set k | 0 <= k < |l| && l[k].isRegular :: names[k]
  {
    var rhs := set k | 0 <= k < |l| && l[k].isRegular :: names[k];
    forall x | x in RegularNames(l) ensures x in rhs {
      var e :| e in l && e.isRegular && BaseName(e.path) == x;
      var k :| 0 <= k < |l| && l[k] == e;
      BaseNameOfJoin(dir, names[k]);
    }
    forall x | x in rhs ensures x in RegularNames(l) {
      var k :| 0 <= k < |l| && l[k].isRegular && names[k] == x;
      BaseNameOfJoin(dir, names[k]);
      assert l[k] in l;
    }
  }

  /** Soundness and completeness: a name is reported exactly when some regular file has it and `names` lacks it. */
  lemma {:induction false} MissingMembership(names: set<string>, l: Listing, x: string)
    ensures x in Missing(names, l) <==> x in RegularNames(l) && x !in names
    decreases |l|
  {
    if |l| > 0 {
      var init, last := l[..|l| - 1], l[|l| - 1];
      assert l == init + [last];
      RegularNamesSnoc(init, last);
      MissingMembership(names, init, x);
    }
  }

  /** A name-set form of MissingMembership. */
  lemma {:induction false} MissingElements(names: set<string>, l: Listing)
    ensures forall x :: x in Missing(names, l) <==> x in RegularNames(l) && x !in names
  {
    forall x ensures x in Missing(names, l) <==> x in RegularNames(l) && x !in names {
      MissingMembership(names, l, x);
    }
  }

  /** Nothing is reported exactly when every regular file's base name is in `names`. */
  lemma {:induction false} MissingEmptyIff(names: set<string>, l: Listing)
    ensures |Missing(names, l)| == 0 <==> RegularNames(l) <= names
  {
    MissingElements(names, l);
    if |Missing(names, l)| != 0 {
      assert Missing(names, l)[0] in Missing(names, l);
    }
  }

  /** Missing and Reported grow together, by one step per listing entry. */
  lemma {:induction false} MissingSnoc(names: set<string>, l: Listing)
    requires |l| > 0
    ensures var init, n := l[..|l| - 1], |l| - 1;
      && (Unmatched(names, l[n]) ==>
            Missing(names, l) == Missing(names, init) + [BaseName(l[n].path)]
            && Reported(names, l) == Reported(names, init) + [n])
      && (!Unmatched(names, l[n]) ==>
            Missing(names, l) == Missing(names, init) && Reported(names, l) == Reported(names, init))
  {
  }

  /** The k-th reported name is the base name of the entry at the k-th reported position. */
  lemma {:induction false} ReportedNames(names: set<string>, l: Listing)
    ensures var r, idx := Missing(names, l), Reported(names, l);
      && |idx| == |r|
      && (forall k :: 0 <= k < |idx| ==> idx[k] < |l| && r[k] == BaseName(l[idx[k]].path))
    decreases |l|
  {
    if |l| > 0 {
      var init := l[..|l| - 1];
      ReportedNames(names, init);
      MissingSnoc(names, l);
      var r0, idx0 := Missing(names, init), Reported(names, init);
      var r, idx := Missing(names, l), Reported(names, l);
      forall k | 0 <= k < |idx0| ensures idx[k] < |l| && r[k] == BaseName(l[idx[k]].path) {
        assert idx[k] == idx0[k] && r[k] == r0[k] && init[idx0[k]] == l[idx0[k]];
      }
    }
  }

  /** Reported positions are listing positions, strictly increasing. */
  lemma {:induction false} ReportedIncreasing(names: set<string>, l: Listing)
    ensures var idx := Reported(names, l);
      && (forall k :: 0 <= k < |idx| ==> idx[k] < |l|)
      && (forall k1, k2 :: 0 <= k1 < k2 < |idx| ==> idx[k1] < idx[k2])
    decreases |l|
  {
    if |l| > 0 {
      ReportedIncreasing(names, l[..|l| - 1]);
      MissingSnoc(names, l);
    }
  }

  /** A position is reported exactly when its entry is an unmatched regular file. */
  lemma {:induction false} ReportedExactly(names: set<string>, l: Listing)
    ensures forall j :: 0 <= j < |l| ==> (j in Reported(names, l) <==> Unmatched(names, l[j]))
    decreases |l|
  {
    if |l| > 0 {
      var init, n := l[..|l| - 1], |l| - 1;
      ReportedExactly(names, init);
      ReportedIncreasing(names, init);
      MissingSnoc(names, l);
      var idx0 := Reported(names, init);
      forall j | 0 <= j < |l| ensures j in Reported(names, l) <==> Unmatched(names, l[j]) {
        if j < n {
          assert init[j] == l[j];
          assert j in Reported(names, l) <==> j in idx0;
        } else {
          assert j !in idx0;
        }
      }
    }
  }

  /**
   * Order and multiplicity: the result is the base names of exactly the
   * unmatched regular files, taken at increasing listing positions.
   */
  lemma {:induction false} MissingInListingOrder(names: set<string>, l: Listing)
    ensures var r, idx := Missing(names, l), Reported(names, l);
      && |idx| == |r|
      && (forall k :: 0 <= k < |idx| ==> idx[k] < |l| && r[k] == BaseName(l[idx[k]].path))
      && (forall k1, k2 :: 0 <= k1 < k2 < |idx| ==> idx[k1] < idx[k2])
      && (forall j :: 0 <= j < |l| ==> (j in idx <==> Unmatched(names, l[j])))
  {
    ReportedNames(names, l);
    ReportedIncreasing(names, l);
    ReportedExactly(names, l);
  }

  /**
   * fileDirectoryChecks(directory1, directory2) as a pure function: the
   * regular files of directory2 whose base names directory1 lacks.
   * directory1 is listed first, so a missing directory1 is reported before
   * directory2's existence is checked.
   */
  function Check(fs: FileSystem, d1: string, d2: string): (r: Result<seq<string>, Error>)
    ensures d1 !in fs ==> r == Failure(CannotListDirectory(d1))
    ensures d1 in fs && d2 !in fs ==> r == Failure(OutputDirectoryNotFound(d2))
    ensures d1 in fs && d2 in fs ==> r.Success?
    ensures r.Success? ==> forall x :: x in r.value <==> x in RegularNames(fs[d2]) && x !in RegularNames(fs[d1])
  {
    if d1 !in fs then Failure(CannotListDirectory(d1))
    else if d2 !in fs then Failure(OutputDirectoryNotFound(d2))
    else
      MissingElements(RegularNames(fs[d1]), fs[d2]);
      Success(Missing(RegularNames(fs[d1]), fs[d2]))
  }

  /** The first loop of fileDirectoryChecks: the base names of directory1's regular files, kept as map keys. */
  method CollectNames(dir1: Listing) returns (names: set<string>)
    ensures names == RegularNames(dir1)
  {
    names := {};
    var i := 0;
    while i < |dir1|
      invariant 0 <= i <= |dir1|
      invariant names == RegularNames(dir1[..i])
    {
      assert dir1[..i + 1] == dir1[..i] + [dir1[i]];
      RegularNamesSnoc(dir1[..i], dir1[i]);
      if dir1[i].isRegular {
        names := names + {BaseName(dir1[i].path)};
      }
      i := i + 1;
    }
    assert dir1[..i] == dir1;
  }

  /** The second loop of fileDirectoryChecks: directory2's regular-file names the map lacks, in listing order. */
  method CollectMissing(names: set<string>, dir2: Listing) returns (missing: seq<string>)
    ensures missing == Missing(names, dir2)
  {
    missing := [];
    var j := 0;
    while j < |dir2|
      invariant 0 <= j <= |dir2|
      invariant missing == Missing(names, dir2[..j])
    {
      assert dir2[..j + 1][..j] == dir2[..j] && dir2[..j + 1][j] == dir2[j];
      MissingSnoc(names, dir2[..j + 1]);
      if dir2[j].isRegular {
        var name := BaseName(dir2[j].path);
        if name !in names {
          missing := missing + [name];
        }
      }
      j := j + 1;
    }
    assert dir2[..j] == dir2;
  }

  /**
   * fileDirectoryChecks as the source writes it: list directory1, then
   * check that directory2 is a directory, then list it.
   */
  method FileDirectoryChecks(fs: FileSystem, d1: string, d2: string) returns (r: Result<seq<string>, Error>)
    ensures r == Check(fs, d1, d2)
    ensures r.Success? ==> d1 in fs && d2 in fs && |r.value| <= |fs[d2]|
  {
    if d1 !in fs {
      return Failure(CannotListDirectory(d1));
    }
    var names := CollectNames(fs[d1]);
    if d2 !in fs {
      return Failure(OutputDirectoryNotFound(d2));
    }
    var missing := CollectMissing(names, fs[d2]);
    r := Success(missing);
  }

  /**
   * The success decision of mapReduceWorkflow: the check runs from the
   * input to the output directory and back, and the run succeeds only when
   * both directions report nothing.
   */
  function Verdict(fs: FileSystem, input: string, output: string): (r: Result<(), Error>)
    ensures r.Success? <==> input in fs && output in fs && RegularNames(fs[input]) == RegularNames(fs[output])
    ensures input !in fs ==> r == Failure(CannotListDirectory(input))
    ensures input in fs && output !in fs ==> r == Failure(OutputDirectoryNotFound(output))
    ensures input in fs && output in fs && RegularNames(fs[input]) != RegularNames(fs[output]) ==> r == Failure(MissingFiles)
  {
    var there := Check(fs, input, output);
    if there.Failure? then Failure(there.error)
    else
      // The first check succeeded, so both directories exist and the reverse check cannot fail.
      var back := Check(fs, output, input).value;
      SuccessIffSameNames(fs[input], fs[output]);
      if |there.value| == 0 && |back| == 0 then Success(()) else Failure(MissingFiles)
  }

  /** Both directions report nothing exactly when the two directories hold the same regular-file base names. */
  lemma {:induction false} SuccessIffSameNames(l1: Listing, l2: Listing)
    ensures |Missing(RegularNames(l1), l2)| == 0 && |Missing(RegularNames(l2), l1)| == 0
        <==> RegularNames(l1) == RegularNames(l2)
  {
    MissingEmptyIff(RegularNames(l1), l2);
    MissingEmptyIff(RegularNames(l2), l1);
  }

  /**
   * The reported names, as a set, depend only on the two directories'
   * regular-file name sets, so the iteration order of either listing does
   * not change them.
   */
  lemma {:induction false} ReportOrderIndependent(l1: Listing, l2: Listing, m1: Listing, m2: Listing)
    requires RegularNames(l1) == RegularNames(m1) && RegularNames(l2) == RegularNames(m2)
    ensures (set x | x in Missing(RegularNames(l1), l2)) == (set x | x in Missing(RegularNames(m1), m2))
  {
    MissingElements(RegularNames(l1), l2);
    MissingElements(RegularNames(m1), m2);
  }
}

=== FILE: lifecycle.dfy ===
/**
 * The lifecycle of the pipeline's libraries and instances as an event trace,
 * and the protocol such a trace must follow: each library is opened once,
 * its instance is created from the previous stage's exposed output, run
 * once before that output is read, destroyed, and the library is closed
 * once, only after every instance is gone.
 */
module Lifecycle {
  import opened Wrappers
  import opened Stages
  import opened Loader

  datatype Event =
    | Open(stage: Stage)                      // dlopen returned a handle
    | OpenFailed(stage: Stage)                // dlopen returned null
    | Lookup(stage: Stage, kind: FactoryKind) // dlsym on the stage's handle
    | Create(stage: Stage, input: string)     // the create factory is called with `input`
    | Run(stage: Stage)                       // the instance's run operation
    | Read(stage: Stage, output: string)      // the instance's exposed output is read
    | Destroy(stage: Stage)                   // the destroy factory is called on the instance
    | Close(stage: Stage)                     // dlclose of the stage's handle
    | WriteMarker(dir: string)                // SUCCESS.ind is written into `dir`

  /** Where a stage is in its lifecycle; the phases only move forward. */
  datatype Phase =
    | Unloaded
    | Opened
    | Created(input: string)
    | Ran(input: string)
    | Destroyed
    | Closed

  function Rank(p: Phase): nat
  {
    match p
    case Unloaded => 0
    case Opened => 1
    case Created(_) => 2
    case Ran(_) => 3
    case Destroyed => 4
    case Closed => 5
  }

  /** The phase of every stage, indexed by Ordinal. */
  type State = st: seq<Phase> | |st| == StageCount
    witness [Unloaded, Unloaded, Unloaded, Unloaded, Unloaded, Unloaded, Unloaded]

  function Uniform(p: Phase): (st: State)
    ensures forall k :: 0 <= k < StageCount ==> st[k] == p
  {
    [p, p, p, p, p, p, p]
  }

  function At(st: State, s: Stage): Phase
  {
    st[Ordinal(s)]
  }

  /**
   * What the protocol is checked against: the input directory handed to the
   * first stage, and the output each stage exposes after running on an
   * input (None when it exposes none).
   */
  datatype Rules = Rules(source: string, run: (Stage, string) -> Option<string>)

  /** The output `s` exposes once it has run, if it is in phase Ran. */
  function Exposed(r: Rules, st: State, s: Stage): Option<string>
  {
    var p := At(st, s);
    if p.Ran? then r.run(s, p.input) else None
  }

  /** `v` is a valid constructor input for `s`: the input directory, or the previous stage's exposed output. */
  predicate InputReady(r: Rules, st: State, s: Stage, v: string)
  {
    if s == InputReader then v == r.source else Exposed(r, st, Prev(s)) == Some(v)
  }

  predicate HandleOpen(p: Phase)
  {
    1 <= Rank(p) <= 4
  }

  predicate AllDestroyed(st: State)
  {
    forall k :: 0 <= k < StageCount ==> Rank(st[k]) >= Rank(Destroyed)
  }

  /** One event of the protocol: the next state, or None when the event is not allowed. */
  function Step(r: Rules, st: State, e: Event): Option<State>
  {
    match e
    case Open(s) => if At(st, s) == Unloaded then Some(st[Ordinal(s) := Opened]) else None
    case OpenFailed(s) => if At(st, s) == Unloaded then Some(st) else None
    case Lookup(s, kind) => if Owner(kind) == s && HandleOpen(At(st, s)) then Some(st) else None
    case Create(s, v) =>
      if At(st, s) == Opened && InputReady(r, st, s, v) then Some(st[Ordinal(s) := Created(v)]) else None
    case Run(s) => if At(st, s).Created? then Some(st[Ordinal(s) := Ran(At(st, s).input)]) else None
    case Read(s, v) => if Exposed(r, st, s) == Some(v) then Some(st) else None
    case Destroy(s) => if At(st, s).Ran? then Some(st[Ordinal(s) := Destroyed]) else None
    case Close(s) => if At(st, s) == Destroyed && AllDestroyed(st) then Some(st[Ordinal(s) := Closed]) else None
    case WriteMarker(_) => if st == Uniform(Closed) then Some(st) else None
  }

  /** Replays a trace from a state; None when some event is not allowed. */
  function Replay(r: Rules, t: seq<Event>, st: State): Option<State>
    decreases |t|
  {
    if |t| == 0 then Some(st)
    else
      match Step(r, st, t[0])
      case None => None
      case Some(st') => Replay(r, t[1..], st')
  }

  const Init: State := Uniform(Unloaded)

  /** A trace that follows the protocol from the start. */
  predicate Legal(r: Rules, t: seq<Event>)
  {
    Replay(r, t, Init).Some?
  }

  /** Replaying a concatenation replays its parts one after the other. */
  lemma {:induction false} ReplayAppend(r: Rules, a: seq<Event>, b: seq<Event>, st: State)
    ensures Replay(r, a + b, st) == (if Replay(r, a, st).None? then None else Replay(r, b, Replay(r, a, st).value))
    decreases |a|
  {
    if |a| == 0 {
      assert a + b == b;
    } else {
      assert (a + b)[0] == a[0];
      assert (a + b)[1..] == a[1..] + b;
      match Step(r, st, a[0])
      case None =>
      case Some(st') => ReplayAppend(r, a[1..], b, st');
    }
  }

  lemma {:induction false} ReplaySingle(r: Rules, e: Event, st: State)
    ensures Replay(r, [e], st) == Step(r, st, e)
  {
    assert [e][1..] == [];
  }

  /** A step changes only the phase of the event's stage, and never moves it backwards. */
  lemma {:induction false} StepFrame(r: Rules, st: State, e: Event)
    requires Step(r, st, e).Some?
    ensures var st' := Step(r, st, e).value;
      forall k :: 0 <= k < StageCount ==>
        Rank(st[k]) <= Rank(st'[k]) && (e.WriteMarker? || k != Ordinal(e.stage) ==> st'[k] == st[k])
  {
  }

  /** Phases never move backwards along a legal trace. */
  lemma {:induction false} ReplayMonotone(r: Rules, t: seq<Event>, st: State)
    requires Replay(r, t, st).Some?
    ensures forall k :: 0 <= k < StageCount ==> Rank(st[k]) <= Rank(Replay(r, t, st).value[k])
    decreases |t|
  {
    if |t| > 0 {
      StepFrame(r, st, t[0]);
      ReplayMonotone(r, t[1..], Step(r, st, t[0]).value);
    }
  }

  /** 1 when stage k's phase passes from below `b` to `b` or above between two states. */
  function Crossed(st: State, st': State, k: nat, b: nat): nat
    requires k < StageCount
  {
    if Rank(st[k]) < b <= Rank(st'[k]) then 1 else 0
  }

  /** The event that moves stage `s` up to rank `b`, for the four boundaries a single event type crosses. */
  function Mover(s: Stage, b: nat): Event
    requires b in {1, 3, 4, 5}
  {
    if b == 1 then Open(s) else if b == 3 then Run(s) else if b == 4 then Destroy(s) else Close(s)
  }

  /**
   * The Open, Run, Destroy and Close events of a stage in a legal trace are
   * counted exactly by the phase boundaries the stage crosses: each happens
   * at most once, and exactly once when the stage goes from before to
   * after that boundary.
   */
  lemma {:induction false} EventCount(r: Rules, t: seq<Event>, st: State, s: Stage, b: nat)
    requires b in {1, 3, 4, 5}
    requires Replay(r, t, st).Some?
    ensures multiset(t)[Mover(s, b)] == Crossed(st, Replay(r, t, st).value, Ordinal(s), b)
    decreases |t|
  {
    if |t| > 0 {
      var st1 := Step(r, st, t[0]).value;
      assert t == [t[0]] + t[1..];
      assert multiset(t) == multiset([t[0]]) + multiset(t[1..]);
      StepCrossing(r, st, t[0], s, b);
      ReplayMonotone(r, t[1..], st1);
      EventCount(r, t[1..], st1, s, b);
    }
  }

  /** One event crosses a stage's boundary exactly when it is that boundary's mover, and never moves a phase back. */
  lemma {:induction false} StepCrossing(r: Rules, st: State, e: Event, s: Stage, b: nat)
    requires b in {1, 3, 4, 5}
    requires Step(r, st, e).Some?
    ensures multiset([e])[Mover(s, b)] == Crossed(st, Step(r, st, e).value, Ordinal(s), b)
    ensures Rank(st[Ordinal(s)]) <= Rank(Step(r, st, e).value[Ordinal(s)])
  {
    StepFrame(r, st, e);
    if !e.WriteMarker? && e.stage == s {
      StepRanks(r, st, e);
    }
  }

  /** The rank an event of each kind takes its own stage from and to. */
  lemma {:induction false} StepRanks(r: Rules, st: State, e: Event)
    requires Step(r, st, e).Some? && !e.WriteMarker?
    ensures var k := Ordinal(e.stage);
      var before, after := Rank(st[k]), Rank(Step(r, st, e).value[k]);
      && (e.Open? ==> before == 0 && after == 1)
      && (e.Create? ==> before == 1 && after == 2)
      && (e.Run? ==> before == 2 && after == 3)
      && (e.Destroy? ==> before == 3 && after == 4)
      && (e.Close? ==> before == 4 && after == 5)
      && (e.OpenFailed? || e.Lookup? || e.Read? ==> after == before)
  {
  }

  lemma {:induction false} EventCounts(r: Rules, t: seq<Event>, st: State, s: Stage)
    requires Replay(r, t, st).Some?
    ensures var st', k := Replay(r, t, st).value, Ordinal(s);
      && multiset(t)[Open(s)] == Crossed(st, st', k, 1)
      && multiset(t)[Run(s)] == Crossed(st, st', k, 3)
      && multiset(t)[Destroy(s)] == Crossed(st, st', k, 4)
      && multiset(t)[Close(s)] == Crossed(st, st', k, 5)
  {
    EventCount(r, t, st, s, 1);
    EventCount(r, t, st, s, 3);
    EventCount(r, t, st, s, 4);
    EventCount(r, t, st, s, 5);
  }

  /** Once every instance is destroyed, no Destroy can follow. */
  lemma {:induction false} NoDestroyOnceAllDestroyed(r: Rules, t: seq<Event>, st: State)
    requires Replay(r, t, st).Some?
    requires AllDestroyed(st)
    ensures forall j :: 0 <= j < |t| ==> !t[j].Destroy?
    decreases |t|
  {
    if |t| > 0 {
      StepFrame(r, st, t[0]);
      NoDestroyOnceAllDestroyed(r, t[1..], Step(r, st, t[0]).value);
      assert forall j :: 1 <= j < |t| ==> t[j] == t[1..][j - 1];
    }
  }

  /** In a legal trace every Destroy comes before every Close. */
  lemma {:induction false} DestroysBeforeCloses(r: Rules, t: seq<Event>, st: State)
    requires Replay(r, t, st).Some?
    ensures forall i, j :: 0 <= i < j < |t| && t[i].Close? ==> !t[j].Destroy?
    decreases |t|
  {
    if |t| > 0 {
      var st1 := Step(r, st, t[0]).value;
      StepFrame(r, st, t[0]);
      DestroysBeforeCloses(r, t[1..], st1);
      assert forall j :: 1 <= j < |t| ==> t[j] == t[1..][j - 1];
      if t[0].Close? {
        NoDestroyOnceAllDestroyed(r, t[1..], st1);
      }
    }
  }

  /** A stage past Opened implies every earlier stage has run. */
  predicate Chained(st: State)
  {
    forall k, m :: 0 <= m < k < StageCount && Rank(st[k]) >= 2 ==> Rank(st[m]) >= 3
  }

  lemma {:induction false} StepChained(r: Rules, st: State, e: Event)
    requires Step(r, st, e).Some?
    requires Chained(st)
    ensures Chained(Step(r, st, e).value)
  {
    StepFrame(r, st, e);
    var st' := Step(r, st, e).value;
    if e.Create? && e.stage != InputReader {
      var k := Ordinal(e.stage);
      assert Rank(st[k - 1]) == 3;
      forall k', m | 0 <= m < k' < StageCount && Rank(st'[k']) >= 2 ensures Rank(st'[m]) >= 3 {
        if k' == k && m < k - 1 {
          assert Rank(st[k - 1]) >= 2;
        }
      }
    }
  }

  /** From a chained state, a stage already created or beyond is never created again, nor any earlier stage. */
  lemma {:induction false} NoCreateAtOrBefore(r: Rules, t: seq<Event>, st: State, k: nat)
    requires Replay(r, t, st).Some?
    requires Chained(st)
    requires k < StageCount && Rank(st[k]) >= 2
    ensures forall j :: 0 <= j < |t| && t[j].Create? ==> Ordinal(t[j].stage) > k
    decreases |t|
  {
    if |t| > 0 {
      var st1 := Step(r, st, t[0]).value;
      StepFrame(r, st, t[0]);
      StepChained(r, st, t[0]);
      NoCreateAtOrBefore(r, t[1..], st1, k);
      assert forall j :: 1 <= j < |t| ==> t[j] == t[1..][j - 1];
    }
  }

  /** In a legal trace the instances are created strictly in pipeline order. */
  lemma {:induction false} CreatedInPipelineOrder(r: Rules, t: seq<Event>, st: State)
    requires Replay(r, t, st).Some?
    requires Chained(st)
    ensures forall i, j :: 0 <= i < j < |t| && t[i].Create? && t[j].Create? ==> Ordinal(t[i].stage) < Ordinal(t[j].stage)
    decreases |t|
  {
    if |t| > 0 {
      var st1 := Step(r, st, t[0]).value;
      StepFrame(r, st, t[0]);
      StepChained(r, st, t[0]);
      CreatedInPipelineOrder(r, t[1..], st1);
      assert forall j :: 1 <= j < |t| ==> t[j] == t[1..][j - 1];
      if t[0].Create? {
        NoCreateAtOrBefore(r, t[1..], st1, Ordinal(t[0].stage));
      }
    }
  }

  /** The properties every legal trace from the start has. */
  lemma {:induction false} LegalTraceOrdering(r: Rules, t: seq<Event>)
    requires Legal(r, t)
    ensures forall i, j :: 0 <= i < j < |t| && t[i].Close? ==> !t[j].Destroy?
    ensures forall i, j :: 0 <= i < j < |t| && t[i].Create? && t[j].Create? ==> Ordinal(t[i].stage) < Ordinal(t[j].stage)
    ensures forall s :: multiset(t)[Open(s)] <= 1 && multiset(t)[Run(s)] <= 1
    ensures forall s :: multiset(t)[Destroy(s)] <= 1 && multiset(t)[Close(s)] <= 1
  {
    DestroysBeforeCloses(r, t, Init);
    CreatedInPipelineOrder(r, t, Init);
    forall s ensures multiset(t)[Open(s)] <= 1 && multiset(t)[Run(s)] <= 1
      && multiset(t)[Destroy(s)] <= 1 && multiset(t)[Close(s)] <= 1 {
      EventCounts(r, t, Init, s);
    }
  }

  /** A legal trace that ends with every library closed opened, ran, destroyed and closed each stage exactly once. */
  lemma {:induction false} CompleteTraceCounts(r: Rules, t: seq<Event>)
    requires Replay(r, t, Init) == Some(Uniform(Closed))
    ensures forall s :: multiset(t)[Open(s)] == 1 && multiset(t)[Run(s)] == 1
    ensures forall s :: multiset(t)[Destroy(s)] == 1 && multiset(t)[Close(s)] == 1
  {
    forall s ensures multiset(t)[Open(s)] == 1 && multiset(t)[Run(s)] == 1
      && multiset(t)[Destroy(s)] == 1 && multiset(t)[Close(s)] == 1 {
      EventCounts(r, t, Init, s);
    }
  }

  /** Some event of `t` creates an instance of `s`. */
  predicate HasCreate(t: seq<Event>, s: Stage)
  {
    exists j :: 0 <= j < |t| && t[j].Create? && t[j].stage == s
  }

  /** A stage runs only after it has been created: every run event is preceded by a create of its stage. */
  lemma {:induction false} RunAfterCreate(r: Rules, t: seq<Event>, j: nat)
    requires Legal(r, t) && j < |t| && t[j].Run?
    ensures HasCreate(t[..j], t[j].stage)
  {
    var s := t[j].stage;
    PrefixReplay(r, t, j, Init);
    InputsRecorded(r, t[..j]);
    var p := Replay(r, t[..j], Init).value[Ordinal(s)];
    assert Create(Pipeline[Ordinal(s)], p.input) in t[..j];
  }

  /** A trace that ends all-closed created every stage, and no stage twice. */
  lemma {:induction false} CompleteTraceCreates(r: Rules, t: seq<Event>)
    requires Replay(r, t, Init) == Some(Uniform(Closed))
    ensures forall s :: HasCreate(t, s)
    ensures forall i, j :: 0 <= i < j < |t| && t[i].Create? && t[j].Create? ==> t[i].stage != t[j].stage
  {
    CompleteTraceCounts(r, t);
    forall s ensures HasCreate(t, s) {
      assert multiset(t)[Run(s)] == 1;
      var j :| 0 <= j < |t| && t[j] == Run(s);
      RunAfterCreate(r, t, j);
      var u :| Create(s, u) in t[..j];
      assert Create(s, u) in t;
    }
    CreatedInPipelineOrder(r, t, Init);
  }

  /** Every event of a legal trace is allowed in the state its prefix reaches. */
  lemma {:induction false} PrefixReplay(r: Rules, t: seq<Event>, j: nat, st: State)
    requires Replay(r, t, st).Some?
    requires j < |t|
    ensures Replay(r, t[..j], st).Some?
    ensures Step(r, Replay(r, t[..j], st).value, t[j]).Some?
  {
    assert t == t[..j] + t[j..];
    ReplayAppend(r, t[..j], t[j..], st);
    assert t[j..][0] == t[j];
  }

  /** An event type counted by EventCount that occurs in the prefix reaching a state of rank b or more. */
  lemma {:induction false} MoverInPrefix(r: Rules, t: seq<Event>, j: nat, s: Stage, b: nat)
    requires Replay(r, t, Init).Some?
    requires j < |t|
    requires b in {1, 3, 4}
    requires Replay(r, t[..j], Init).Some?
    requires Rank(At(Replay(r, t[..j], Init).value, s)) >= b
    ensures Mover(s, b) in t[..j]
  {
    PrefixReplay(r, t, j, Init);
    EventCount(r, t[..j], Init, s, b);
  }

  /**
   * In a legal trace, a symbol is looked up only on a handle already
   * opened; an instance is created only after the previous stage has run;
   * its output is read, and it is destroyed, only after it has run; and a
   * handle is closed only after its instance has been destroyed.
   */
  lemma {:induction false} EventsFollowPrerequisites(r: Rules, t: seq<Event>)
    requires Legal(r, t)
    ensures forall j :: 0 <= j < |t| && t[j].Lookup? ==> Open(t[j].stage) in t[..j]
    ensures forall j :: 0 <= j < |t| && t[j].Create? && t[j].stage != InputReader ==> Run(Prev(t[j].stage)) in t[..j]
    ensures forall j :: 0 <= j < |t| && t[j].Read? ==> Run(t[j].stage) in t[..j]
    ensures forall j :: 0 <= j < |t| && t[j].Destroy? ==> Run(t[j].stage) in t[..j]
    ensures forall j :: 0 <= j < |t| && t[j].Close? ==> Destroy(t[j].stage) in t[..j]
  {
    forall j | 0 <= j < |t|
      ensures t[j].Lookup? ==> Open(t[j].stage) in t[..j]
      ensures t[j].Create? && t[j].stage != InputReader ==> Run(Prev(t[j].stage)) in t[..j]
      ensures t[j].Read? ==> Run(t[j].stage) in t[..j]
      ensures t[j].Destroy? ==> Run(t[j].stage) in t[..j]
      ensures t[j].Close? ==> Destroy(t[j].stage) in t[..j]
    {
      PrefixReplay(r, t, j, Init);
      var e := t[j];
      match e
      case Lookup(s, _) => MoverInPrefix(r, t, j, s, 1);
      case Create(s, _) => if s != InputReader { MoverInPrefix(r, t, j, Prev(s), 3); }
      case Read(s, _) => MoverInPrefix(r, t, j, s, 3);
      case Destroy(s) => MoverInPrefix(r, t, j, s, 3);
      case Close(s) => MoverInPrefix(r, t, j, s, 4);
      case _ =>
    }
  }

  /** The input recorded in a Created or Ran phase is the one the stage's Create event carried. */
  lemma {:induction false} InputsRecorded(r: Rules, t: seq<Event>)
    requires Legal(r, t)
    ensures forall k :: 0 <= k < StageCount ==>
      var p := Replay(r, t, Init).value[k];
      (p.Created? || p.Ran?) ==> Create(Pipeline[k], p.input) in t
    decreases |t|
  {
    if |t| > 0 {
      var n := |t| - 1;
      var init := t[..n];
      assert t == init + [t[n]];
      ReplayAppend(r, init, [t[n]], Init);
      InputsRecorded(r, init);
      var st := Replay(r, init, Init).value;
      ReplaySingle(r, t[n], st);
      StepFrame(r, st, t[n]);
      forall k | 0 <= k < StageCount
        ensures var p := Replay(r, t, Init).value[k];
          (p.Created? || p.Ran?) ==> Create(Pipeline[k], p.input) in t
      {
        var p := Replay(r, t, Init).value[k];
        if (p.Created? || p.Ran?) && p != st[k] {
          assert t[n] == Create(Pipeline[k], p.input) || (t[n] == Run(Pipeline[k]) && st[k] == Created(p.input));
        }
      }
    }
  }

  /**
   * In a legal trace the first stage is created from the input directory,
   * every later stage from an output its predecessor, created earlier on
   * some input, produces from that input; and every output read is the one
   * the stage produces from the input it was created with.
   */
  lemma {:induction false} InputsChain(r: Rules, t: seq<Event>)
    requires Legal(r, t)
    ensures forall j :: 0 <= j < |t| && t[j].Create? && t[j].stage == InputReader ==> t[j].input == r.source
    ensures forall j :: 0 <= j < |t| && t[j].Create? && t[j].stage != InputReader ==>
      exists u :: Create(Prev(t[j].stage), u) in t[..j] && r.run(Prev(t[j].stage), u) == Some(t[j].input)
    ensures forall j :: 0 <= j < |t| && t[j].Read? ==>
      exists u :: Create(t[j].stage, u) in t[..j] && r.run(t[j].stage, u) == Some(t[j].output)
  {
    forall j | 0 <= j < |t|
      ensures t[j].Create? && t[j].stage == InputReader ==> t[j].input == r.source
      ensures t[j].Create? && t[j].stage != InputReader ==>
        exists u :: Create(Prev(t[j].stage), u) in t[..j] && r.run(Prev(t[j].stage), u) == Some(t[j].input)
      ensures t[j].Read? ==>
        exists u :: Create(t[j].stage, u) in t[..j] && r.run(t[j].stage, u) == Some(t[j].output)
    {
      PrefixReplay(r, t, j, Init);
      InputsRecorded(r, t[..j]);
      var st := Replay(r, t[..j], Init).value;
      match t[j]
      case Create(s, v) =>
        if s != InputReader {
          var p := Prev(s);
          assert Pipeline[Ordinal(p)] == p;
          assert Create(p, st[Ordinal(p)].input) in t[..j];
        }
      case Read(s, v) =>
        assert Pipeline[Ordinal(s)] == s;
        assert Create(s, st[Ordinal(s)].input) in t[..j];
      case _ =>
    }
  }
}

=== FILE: loader.dfy ===
/**
 * createLibHandle / createLibFunc: the shared libraries that supply the
 * stages and the type-gated lookup of their factory functions.
 */
module Loader {
  import opened Wrappers
  import opened Stages

  /**
   * The factory-function types createLibFunc accepts; any other type is
   * rejected at compile time ("Unsupported Implementation!").
   */
  datatype FactoryKind =
    | CreateInput | DestroyInput
    | CreateMapper | DestroyMapper
    | ReadMapperOutput | DestroyMapperOutput
    | CreateShuffler | DestroyShuffler
    | ReadShufflerOutput | DestroyShufflerOutput
    | CreateReducer | DestroyReducer
    | ReadReducerOutput | DestroyReducerOutput

  /** The shared library each stage is loaded from. */
  function LibraryFile(s: Stage): string
  {
    match s
    case InputReader => "./libs/fp/FileProcessorInput.so"
    case Mapper => "./libs/map/MapperImpl.so"
    case MapWriter => "./libs/fp/FileProcessorMapOutput.so"
    case Shuffler => "./libs/shuffle/ShufflerImpl.so"
    case ShuffleWriter => "./libs/fp/FileProcessorShufOutput.so"
    case Reducer => "./libs/reduce/ReducerImpl.so"
    case FinalWriter => "./libs/fp/FileProcessorRedOutput.so"
  }

  /** The factory type requested when a stage's instance is created. */
  function CreateKind(s: Stage): FactoryKind
  {
    match s
    case InputReader => CreateInput
    case Mapper => CreateMapper
    case MapWriter => ReadMapperOutput
    case Shuffler => CreateShuffler
    case ShuffleWriter => ReadShufflerOutput
    case Reducer => CreateReducer
    case FinalWriter => ReadReducerOutput
  }

  /** The factory type requested when a stage's instance is destroyed. */
  function DestroyKind(s: Stage): FactoryKind
  {
    match s
    case InputReader => DestroyInput
    case Mapper => DestroyMapper
    case MapWriter => DestroyMapperOutput
    case Shuffler => DestroyShuffler
    case ShuffleWriter => DestroyShufflerOutput
    case Reducer => DestroyReducer
    case FinalWriter => DestroyReducerOutput
  }

  /**
   * The stage a factory type belongs to: every accepted type is the
   * creator or the destroyer of exactly one stage.
   */
  function Owner(k: FactoryKind): (s: Stage)
    ensures k == CreateKind(s) || k == DestroyKind(s)
    ensures forall t :: k == CreateKind(t) || k == DestroyKind(t) ==> t == s
  {
    match k
    case CreateInput | DestroyInput => InputReader
    case CreateMapper | DestroyMapper => Mapper
    case ReadMapperOutput | DestroyMapperOutput => MapWriter
    case CreateShuffler | DestroyShuffler => Shuffler
    case ReadShufflerOutput | DestroyShufflerOutput => ShuffleWriter
    case CreateReducer | DestroyReducer => Reducer
    case ReadReducerOutput | DestroyReducerOutput => FinalWriter
  }

  predicate IsCreator(k: FactoryKind)
  {
    k == CreateKind(Owner(k))
  }

  /** Every library exports its factories under the same two names. */
  function SymbolOf(k: FactoryKind): string
  {
    if IsCreator(k) then "createInputObj" else "removeInputObj"
  }

  /** A loaded library, known only by the symbols it exports. */
  datatype Library = Library(symbols: set<string>)

  /** A resolved factory function. */
  datatype Factory = Factory(file: string, symbol: string, kind: FactoryKind)

  /**
   * createLibHandle: dlopen of a library file; None is the null handle.
   * `libraries` holds the files that load.
   */
  function OpenLibrary(libraries: map<string, Library>, file: string): (h: Option<Library>)
    ensures h.Some? <==> file in libraries
    ensures h.Some? ==> h.value == libraries[file]
  {
    if file in libraries then Some(libraries[file]) else None
  }

  /**
   * createLibFunc<T>(handle, file, symbol): a null handle is rejected before
   * any lookup; a symbol the library does not export is rejected next;
   * otherwise the factory of type `kind` is returned.
   */
  function CreateLibFunc(handle: Option<Library>, file: string, symbol: string, kind: FactoryKind)
    : (r: Result<Factory, Error>)
    ensures handle.None? ==> r == Failure(CannotLoadLibrary(file))
    ensures handle.Some? && symbol !in handle.value.symbols ==> r == Failure(CannotLoadSymbol(file, symbol))
    ensures r.Success? <==> handle.Some? && symbol in handle.value.symbols
    ensures r.Success? ==> r.value == Factory(file, symbol, kind)
  {
    match handle
    case None => Failure(CannotLoadLibrary(file))
    case Some(lib) =>
      if symbol in lib.symbols then Success(Factory(file, symbol, kind))
      else Failure(CannotLoadSymbol(file, symbol))
  }
}

=== FILE: orchestration.dfy ===
/**
 * runOrchestration and the program's entry point: check the input
 * directory, skip an empty one, otherwise run the whole workflow.
 */
module Orchestration {
  import opened Wrappers
  import opened Stages
  import opened DirectoryChecks
  import opened Lifecycle
  import opened Workflow

  /**
   * runOrchestration on `inputDir`. `before` is the file system when it
   * starts and `after` the file system once the plugins have run, which is
   * what the directory checks list. A path that is not a directory raises
   * "Directory not found!"; a directory with no entries at all (of any
   * kind) only reports that there is nothing to process; otherwise the
   * workflow runs, and whatever runtime error it raises it catches and
   * reports itself, so its outcome never turns into an error here.
   */
  function RunOrchestration(env: Env, before: FileSystem, after: FileSystem, inputDir: string): (r: Result<Option<Outcome>, Error>)
    ensures r.Failure? <==> inputDir !in before
    ensures r.Failure? ==> r.error == DirectoryNotFound(inputDir)
    ensures r == Success(None) <==> inputDir in before && |before[inputDir]| == 0
    ensures r.Success? && r.value.Some? ==> inputDir in before && |before[inputDir]| > 0
    ensures r.Success? && r.value.Some? ==> r.value.value == MapReduceWorkflow(env, after, inputDir)
  {
    if inputDir !in before then Failure(DirectoryNotFound(inputDir))
    else if |before[inputDir]| == 0 then Success(None)
    else Success(Some(MapReduceWorkflow(env, after, inputDir)))
  }

  /** What the program reports for its command-line arguments (the program name excluded). */
  datatype Report =
    | NoArguments                                   // "No arguments were provided! ..."
    | Orchestrated(result: Result<Option<Outcome>, Error>)

  /**
   * main: without an argument it only asks for one; otherwise the first
   * argument is the input directory and runOrchestration's error, if any,
   * is caught and reported. Further arguments are ignored.
   */
  function Program(env: Env, before: FileSystem, after: FileSystem, args: seq<string>): (rep: Report)
    ensures rep.NoArguments? <==> |args| == 0
    ensures |args| > 0 ==> rep.result == RunOrchestration(env, before, after, args[0])
  {
    if |args| == 0 then NoArguments else Orchestrated(RunOrchestration(env, before, after, args[0]))
  }

  /**
   * The program marks an output directory with SUCCESS.ind only when it was
   * given a directory that existed and had entries when it started, the
   * pipeline ran to the end, and afterwards the input and final output
   * directories held the same regular-file base names; the marker then
   * closes a run in which every library was opened, every instance run,
   * destroyed and every handle closed exactly once.
   */
  lemma {:induction false} SuccessfulProgram(env: Env, before: FileSystem, after: FileSystem, args: seq<string>)
    ensures var rep := Program(env, before, after, args);
      rep.Orchestrated? && rep.result.Success? && rep.result.value.Some? && rep.result.value.value.result.Success? ==>
        var dir, o := args[0], rep.result.value.value;
        var out := o.result.value;
        && dir in before && |before[dir]| > 0
        && dir in after && out in after && RegularNames(after[dir]) == RegularNames(after[out])
        && o.events[|o.events| - 1] == WriteMarker(out)
        && (forall s :: multiset(o.events)[Open(s)] == 1 && multiset(o.events)[Close(s)] == 1)
        && (forall s :: multiset(o.events)[Run(s)] == 1 && multiset(o.events)[Destroy(s)] == 1)
  {
    if |args| > 0 && args[0] in before && |before[args[0]]| > 0 {
      SuccessDecision(env, after, args[0]);
      MarkerOnlyOnSuccess(env, after, args[0]);
      SuccessLifecycle(env, after, args[0]);
    }
  }

  /**
   * Conversely, once a directory that had entries at the start has gone
   * through the whole pipeline and teardown, the file system afterwards
   * alone decides the outcome: the marker when the input and final output
   * directories hold the same base names, "There are missing files!" when
   * they differ, the missing-output-directory error when the output
   * directory is gone, and the listing error when a plugin removed the
   * input directory.
   */
  lemma {:induction false} CompletedPipelineDecides(env: Env, before: FileSystem, after: FileSystem, dir: string)
    requires dir in before && |before[dir]| > 0
    requires Forward(env, 0, dir).result.Success? && Teardown(env).result.Success?
    ensures var r, out := RunOrchestration(env, before, after, dir), Forward(env, 0, dir).result.value;
      && r.Success? && r.value.Some?
      && (dir !in after ==> r.value.value.result == Failure(CannotListDirectory(dir)))
      && (dir in after && out in after && RegularNames(after[dir]) == RegularNames(after[out]) ==> r.value.value.result == Success(out))
      && (dir in after && out in after && RegularNames(after[dir]) != RegularNames(after[out]) ==> r.value.value.result == Failure(MissingFiles))
      && (dir in after && out !in after ==> r.value.value.result == Failure(OutputDirectoryNotFound(out)))
  {
    SuccessDecision(env, after, dir);
  }
}

=== FILE: paths.dfy ===
/** Base-name extraction with std::string::rfind and substr. */
module Paths {
  import opened Wrappers

  /** Number of values of std::size_t (64-bit). */
  const SizeModulus: int := 0x1_0000_0000_0000_0000

  /** std::string::npos, the largest std::size_t value. */
  const NPos: int := SizeModulus - 1

  /** std::string::rfind(c): the index of the last `c` in `s`, or None for npos. */
  function RFind(s: string, c: char): (r: Option<nat>)
    ensures r.None? <==> c !in s
    ensures r.Some? ==> r.value < |s| && s[r.value] == c
    ensures r.Some? ==> forall j :: r.value < j < |s| ==> s[j] != c
  {
    if |s| == 0 then None
    else if s[|s| - 1] == c then Some(|s| - 1)
    else RFind(s[..|s| - 1], c)
  }

  /**
   * The start position `rfind(c) + 1` handed to substr. The sum is computed
   * in std::size_t, so for npos it wraps around to 0.
   */
  function AfterLast(s: string, c: char): (pos: nat)
    ensures pos <= |s|
    ensures c !in s ==> pos == 0
    ensures c in s ==> 0 < pos && s[pos - 1] == c
    ensures forall j :: pos <= j < |s| ==> s[j] != c
  {
    match RFind(s, c)
    case Some(i) => i + 1
    case None => (NPos + 1) % SizeModulus
  }

  /**
   * The file name of a directory entry's path: everything after the last
   * '/', or the whole path when it holds none.
   */
  function BaseName(path: string): (name: string)
    ensures '/' !in name
    ensures |name| <= |path| && name == path[|path| - |name|..]
    ensures '/' in path ==> |name| < |path| && path[|path| - |name| - 1] == '/'
    ensures '/' !in path ==> name == path
  {
    var pos := AfterLast(path, '/');
    assert forall j :: 0 <= j < |path| - pos ==> path[pos..][j] == path[pos + j];
    path[pos..]
  }

  /**
   * A directory entry's path is its directory, a '/', and its file name;
   * BaseName recovers exactly that file name.
   */
  lemma {:induction false} BaseNameOfJoin(dir: string, file: string)
    requires '/' !in file
    ensures BaseName(dir + "/" + file) == file
  {
    var path := dir + "/" + file;
    assert path[|dir|] == '/';
    assert forall j :: |dir| < j < |path| ==> path[j] == file[j - |dir| - 1];
  }
}

=== FILE: stages.dfy ===
/**
 * The seven stage instances of the MapReduce pipeline, in the order the
 * workflow creates them, and the errors the orchestration can raise.
 */
module Stages {

  datatype Stage =
    | InputReader    // FileProcessorInput: reads the input directory
    | Mapper         // MapperImpl
    | MapWriter      // FileProcessorMapOutput: writes the mapper output
    | Shuffler       // ShufflerImpl
    | ShuffleWriter  // FileProcessorShufOutput: writes the shuffled output
    | Reducer        // ReducerImpl
    | FinalWriter    // FileProcessorRedOutput: writes the final output

  const StageCount: nat := 7

  /** The creation order of the pipeline. */
  const Pipeline: seq<Stage> :=
    [InputReader, Mapper, MapWriter, Shuffler, ShuffleWriter, Reducer, FinalWriter]

  /** Position of a stage in the pipeline. */
  function Ordinal(s: Stage): (k: nat)
    ensures k < StageCount == |Pipeline|
    ensures Pipeline[k] == s
  {
    match s
    case InputReader => 0
    case Mapper => 1
    case MapWriter => 2
    case Shuffler => 3
    case ShuffleWriter => 4
    case Reducer => 5
    case FinalWriter => 6
  }

  /** The stage at position i of the pipeline; its ordinal is i. */
  function StageAt(i: nat): (s: Stage)
    requires i < StageCount
    ensures Ordinal(s) == i
  {
    Pipeline[i]
  }

  /** The stage whose exposed output is the constructor input of `s`. */
  function Prev(s: Stage): (p: Stage)
    requires s != InputReader
    ensures Ordinal(p) + 1 == Ordinal(s)
  {
    Pipeline[Ordinal(s) - 1]
  }

  /** The runtime errors raised by the orchestration, one per distinct message. */
  datatype Error =
    | DirectoryNotFound(path: string)          // "Directory not found!: " + path
    | OutputDirectoryNotFound(path: string)    // "Output Directory not found!: " + path
    | CannotListDirectory(path: string)        // directory_iterator on a path that is not a directory
    | CannotLoadLibrary(file: string)          // "Cannot load library: ..."
    | CannotLoadSymbol(file: string, symbol: string)  // "Cannot load symbol from- file:..."
    | StageFailed(stage: Stage)                // a plugin raised while being built, run or read
    | MissingFiles                             // "There are missing files!"
}

=== FILE: workflow.dfy ===
/**
 * mapReduceWorkflow: loads, creates and runs the seven stages in order,
 * each from the previous stage's exposed output, then resolves every
 * destroy factory, destroys the seven instances, closes the seven handles
 * and compares the input and final output directories.
 */
module Workflow {
  import opened Wrappers
  import opened Stages
  import opened Loader
  import opened Lifecycle
  import opened DirectoryChecks

  /**
   * What a stage does when its create factory is called on an input: the
   * constructor raises, the run operation raises, the getter that exposes
   * its output raises, or it exposes `output`.
   */
  datatype Behaviour =
    | CreateRaises
    | RunRaises
    | OutputRaises
    | Exposes(output: string)

  function Output(b: Behaviour): Option<string>
  {
    if b.Exposes? then Some(b.output) else None
  }

  /**
   * What a run depends on besides the file system: the library files that
   * load (with their exported symbols), and how each stage behaves on a
   * given input.
   */
  datatype Env = Env(libraries: map<string, Library>, behaviour: (Stage, string) -> Behaviour)

  /** The partial result of a run: the events so far and the result. */
  datatype Partial<T> = Partial(events: seq<Event>, result: Result<T, Error>)

  /** A whole run; on success the result is the final output directory. */
  type Outcome = Partial<string>

  /** The protocol a run on `inputDir` is checked against: a stage exposes an output only when its behaviour does. */
  function RulesOf(env: Env, inputDir: string): Rules
  {
    Rules(inputDir, (s: Stage, v: string) => Output(env.behaviour(s, v)))
  }

  /** The handle createLibHandle returns for a stage's library. */
  function Handle(env: Env, s: Stage): Option<Library>
  {
    OpenLibrary(env.libraries, LibraryFile(s))
  }

  /** createLibHandle, then createLibFunc for the stage's create factory. */
  function LoadCreator(env: Env, s: Stage): (p: Partial<Factory>)
    ensures p.result.Success? <==> Handle(env, s).Some? && SymbolOf(CreateKind(s)) in Handle(env, s).value.symbols
    ensures p.result.Failure? && Handle(env, s).None? ==> p.result.error == CannotLoadLibrary(LibraryFile(s))
    ensures p.result.Failure? && Handle(env, s).Some? ==> p.result.error == CannotLoadSymbol(LibraryFile(s), SymbolOf(CreateKind(s)))
    ensures p.events == if Handle(env, s).Some? then [Open(s), Lookup(s, CreateKind(s))] else [OpenFailed(s)]
  {
    var h := Handle(env, s);
    var k := CreateKind(s);
    Partial(if h.Some? then [Open(s), Lookup(s, k)] else [OpenFailed(s)],
            CreateLibFunc(h, LibraryFile(s), SymbolOf(k), k))
  }

  /** Stage i's constructor argument: for a later stage, the previous stage's exposed output is read. */
  function Argument(i: nat, input: string): seq<Event>
    requires i < StageCount
  {
    if i == 0 then [] else [Read(StageAt(i - 1), input)]
  }

  /** The events of building and running stage i from `input`. */
  function Build(i: nat, input: string): seq<Event>
    requires i < StageCount
  {
    Argument(i, input) + [Create(StageAt(i), input), Run(StageAt(i))]
  }

  /**
   * The source calls a stage's output getter before loading the next
   * library (to print the output) for every stage but the shuffler and the
   * reducer, whose outputs are first read as the next constructor's argument.
   */
  predicate ReadBeforeNextLoad(s: Stage)
  {
    s != Shuffler && s != Reducer
  }

  /** Stage i ends the forward pass: its library or creator fails to load, or the stage does not expose an output. */
  predicate EndsAt(env: Env, i: nat, input: string)
    requires i < StageCount
  {
    LoadCreator(env, StageAt(i)).result.Failure? || !env.behaviour(StageAt(i), input).Exposes?
  }

  /** The events and error of a forward pass that ends at stage i. */
  function StageEnd(env: Env, i: nat, input: string): Outcome
    requires i < StageCount && EndsAt(env, i, input)
  {
    var s := StageAt(i);
    var load := LoadCreator(env, s);
    if load.result.Failure? then Partial(load.events, Failure(load.result.error))
    else
      var b := env.behaviour(s, input);
      var built := load.events + Build(i, input);
      if b == CreateRaises then Partial(load.events + Argument(i, input), Failure(StageFailed(s)))
      else if b == RunRaises || i == StageCount - 1 || ReadBeforeNextLoad(s) then Partial(built, Failure(StageFailed(s)))
      else
        var next := LoadCreator(env, StageAt(i + 1));
        Partial(built + next.events, Failure(if next.result.Failure? then next.result.error else StageFailed(s)))
  }

  /** Stages i.. of the forward pass, stage i taking `input`. */
  function Forward(env: Env, i: nat, input: string): Outcome
    requires i < StageCount
    decreases StageCount - i
  {
    if EndsAt(env, i, input) then StageEnd(env, i, input)
    else
      var s := StageAt(i);
      var out := env.behaviour(s, input).output;
      var built := LoadCreator(env, s).events + Build(i, input);
      if i == StageCount - 1 then Partial(built + [Read(s, out)], Success(out))
      else
        var rest := Forward(env, i + 1, out);
        Partial(built + rest.events, rest.result)
  }

  /** createLibFunc for the destroy factories of stages i.., on the handles already held. */
  function LookupDestroyers(env: Env, i: nat): Partial<()>
    requires i <= StageCount
    decreases StageCount - i
  {
    if i == StageCount then Partial([], Success(()))
    else
      var s := StageAt(i);
      var h := Handle(env, s);
      var k := DestroyKind(s);
      var f := CreateLibFunc(h, LibraryFile(s), SymbolOf(k), k);
      var ev := if h.Some? then [Lookup(s, k)] else [];
      if f.Failure? then Partial(ev, Failure(f.error))
      else
        var rest := LookupDestroyers(env, i + 1);
        Partial(ev + rest.events, rest.result)
  }

  /** The destroy calls for stages i.., in pipeline order. */
  function Destroys(i: nat): seq<Event>
    requires i <= StageCount
    decreases StageCount - i
  {
    if i == StageCount then [] else [Destroy(StageAt(i))] + Destroys(i + 1)
  }

  /** The dlclose calls for stages i.., in pipeline order. */
  function Closes(i: nat): seq<Event>
    requires i <= StageCount
    decreases StageCount - i
  {
    if i == StageCount then [] else [Close(StageAt(i))] + Closes(i + 1)
  }

  /**
   * The end of a run: resolve every destroy factory, then destroy the seven
   * instances, then close the seven handles, each in pipeline order.
   */
  function Teardown(env: Env): Partial<()>
  {
    var lk := LookupDestroyers(env, 0);
    if lk.result.Failure? then lk else Partial(lk.events + Destroys(0) + Closes(0), Success(()))
  }

  /**
   * mapReduceWorkflow on `inputDir`. Every runtime error ends the run where
   * it is raised: nothing already created is destroyed and no handle is
   * closed. `fs` is the file system as the directory checks see it.
   */
  function MapReduceWorkflow(env: Env, fs: FileSystem, inputDir: string): Outcome
  {
    var fwd := Forward(env, 0, inputDir);
    if fwd.result.Failure? then fwd
    else
      var out := fwd.result.value;
      var td := Teardown(env);
      if td.result.Failure? then Partial(fwd.events + td.events, Failure(td.result.error))
      else
        match Verdict(fs, inputDir, out)
        case Failure(e) => Partial(fwd.events + td.events, Failure(e))
        case Success(_) => Partial(fwd.events + td.events + [WriteMarker(out)], Success(out))
  }

  // ---------------------------------------------------------------------------
  // The workflow follows the lifecycle protocol

  /** The protocol state just before stage i is loaded. */
  predicate BeforeStage(r: Rules, i: nat, input: string, st: State)
    requires i < StageCount
  {
    && (forall k :: 0 <= k < i ==> st[k].Ran?)
    && (forall k :: i <= k < StageCount ==> st[k] == Unloaded)
    && (i == 0 ==> input == r.source)
    && (i > 0 ==> Exposed(r, st, StageAt(i - 1)) == Some(input))
  }

  predicate AllRan(st: State)
  {
    forall k :: 0 <= k < StageCount ==> st[k].Ran?
  }

  /** Loading stage i's creator opens its handle and resolves a factory the stage owns. */
  lemma {:induction false} LoadFollowsProtocol(env: Env, source: string, i: nat, st: State)
    requires i < StageCount && st[i] == Unloaded
    ensures var load, r := LoadCreator(env, StageAt(i)), RulesOf(env, source);
      && (Handle(env, StageAt(i)).None? ==> Replay(r, load.events, st) == Some(st))
      && (Handle(env, StageAt(i)).Some? ==> Replay(r, load.events, st) == Some(st[i := Opened]))
  {
    var s, r := StageAt(i), RulesOf(env, source);
    if Handle(env, s).None? {
      ReplaySingle(r, OpenFailed(s), st);
    } else {
      var k := CreateKind(s);
      assert [Open(s), Lookup(s, k)] == [Open(s)] + [Lookup(s, k)];
      ReplayAppend(r, [Open(s)], [Lookup(s, k)], st);
      ReplaySingle(r, Open(s), st);
      ReplaySingle(r, Lookup(s, k), st[i := Opened]);
    }
  }

  /** Reading the previous stage's exposed output as the argument changes no phase. */
  lemma {:induction false} ArgumentFollowsProtocol(r: Rules, i: nat, input: string, st: State)
    requires i < StageCount
    requires i > 0 ==> Exposed(r, st, StageAt(i - 1)) == Some(input)
    ensures Replay(r, Argument(i, input), st) == Some(st)
  {
    if i > 0 {
      ReplaySingle(r, Read(StageAt(i - 1), input), st);
    }
  }

  /** Building stage i reads the previous output, creates the instance from it and runs it once. */
  lemma {:induction false} BuildFollowsProtocol(r: Rules, i: nat, input: string, st: State)
    requires i < StageCount && st[i] == Opened
    requires i == 0 ==> input == r.source
    requires i > 0 ==> Exposed(r, st, StageAt(i - 1)) == Some(input)
    ensures Replay(r, Build(i, input), st) == Some(st[i := Ran(input)])
  {
    var s := StageAt(i);
    var st2 := st[i := Created(input)];
    assert s == InputReader <==> i == 0;
    assert s != InputReader ==> Prev(s) == StageAt(i - 1);
    assert Step(r, st, Create(s, input)) == Some(st2);
    assert st2[i := Ran(input)] == st[i := Ran(input)];
    assert Step(r, st2, Run(s)) == Some(st[i := Ran(input)]);
    ReplayAppend(r, [Create(s, input)], [Run(s)], st);
    ReplaySingle(r, Create(s, input), st);
    ReplaySingle(r, Run(s), st2);
    assert [Create(s, input), Run(s)] == [Create(s, input)] + [Run(s)];
    ArgumentFollowsProtocol(r, i, input, st);
    ReplayAppend(r, Argument(i, input), [Create(s, input), Run(s)], st);
  }

  /** Loading and building stage i from the state before it leaves the stage run on `input`. */
  lemma {:induction false} StageFollowsProtocol(env: Env, source: string, i: nat, input: string, st: State)
    requires i < StageCount
    requires BeforeStage(RulesOf(env, source), i, input, st)
    requires LoadCreator(env, StageAt(i)).result.Success?
    ensures Replay(RulesOf(env, source), LoadCreator(env, StageAt(i)).events + Build(i, input), st)
         == Some(st[i := Ran(input)])
  {
    var r, load := RulesOf(env, source), LoadCreator(env, StageAt(i));
    var st1 := st[i := Opened];
    LoadFollowsProtocol(env, source, i, st);
    if i > 0 {
      assert st1[i - 1] == st[i - 1];
      assert Exposed(r, st1, StageAt(i - 1)) == Exposed(r, st, StageAt(i - 1));
    }
    BuildFollowsProtocol(r, i, input, st1);
    assert st1[i := Ran(input)] == st[i := Ran(input)];
    ReplayAppend(r, load.events, Build(i, input), st);
  }

  /** Once stage i has run on its input, the state is the one before stage i + 1, fed stage i's output. */
  lemma {:induction false} NextStageReady(r: Rules, i: nat, input: string, out: string, st: State)
    requires i + 1 < StageCount
    requires BeforeStage(r, i, input, st)
    requires r.run(StageAt(i), input) == Some(out)
    ensures BeforeStage(r, i + 1, out, st[i := Ran(input)])
  {
    var st3 := st[i := Ran(input)];
    assert Exposed(r, st3, StageAt(i)) == Some(out);
  }

  /** A stage whose constructor raises leaves its handle open and its previous stage untouched. */
  lemma {:induction false} CreateEndFollowsProtocol(env: Env, source: string, i: nat, input: string, st: State)
    requires i < StageCount
    requires BeforeStage(RulesOf(env, source), i, input, st)
    requires LoadCreator(env, StageAt(i)).result.Success?
    ensures Replay(RulesOf(env, source), LoadCreator(env, StageAt(i)).events + Argument(i, input), st).Some?
  {
    var r, load := RulesOf(env, source), LoadCreator(env, StageAt(i));
    var st1 := st[i := Opened];
    LoadFollowsProtocol(env, source, i, st);
    if i > 0 {
      assert st1[i - 1] == st[i - 1];
    }
    ArgumentFollowsProtocol(r, i, input, st1);
    ReplayAppend(r, load.events, Argument(i, input), st);
  }

  /** A stage that has run and then fails to expose its output may already have loaded the next stage's creator. */
  lemma {:induction false} NextLoadFollowsProtocol(env: Env, source: string, i: nat, input: string, st: State)
    requires i + 1 < StageCount
    requires BeforeStage(RulesOf(env, source), i, input, st)
    requires LoadCreator(env, StageAt(i)).result.Success?
    ensures var built := LoadCreator(env, StageAt(i)).events + Build(i, input);
      Replay(RulesOf(env, source), built + LoadCreator(env, StageAt(i + 1)).events, st).Some?
  {
    var r := RulesOf(env, source);
    var built := LoadCreator(env, StageAt(i)).events + Build(i, input);
    var st3 := st[i := Ran(input)];
    StageFollowsProtocol(env, source, i, input, st);
    assert st3[i + 1] == Unloaded;
    LoadFollowsProtocol(env, source, i + 1, st3);
    ReplayAppend(r, built, LoadCreator(env, StageAt(i + 1)).events, st);
  }

  /** A forward pass that ends at stage i follows the protocol up to its failure. */
  lemma {:induction false} StageEndFollowsProtocol(env: Env, source: string, i: nat, input: string, st: State)
    requires i < StageCount && EndsAt(env, i, input)
    requires BeforeStage(RulesOf(env, source), i, input, st)
    ensures Replay(RulesOf(env, source), StageEnd(env, i, input).events, st).Some?
  {
    var s := StageAt(i);
    var load := LoadCreator(env, s);
    LoadFollowsProtocol(env, source, i, st);
    if load.result.Success? {
      var b := env.behaviour(s, input);
      if b == CreateRaises {
        CreateEndFollowsProtocol(env, source, i, input, st);
      } else if b == RunRaises || i == StageCount - 1 || ReadBeforeNextLoad(s) {
        StageFollowsProtocol(env, source, i, input, st);
      } else {
        NextLoadFollowsProtocol(env, source, i, input, st);
      }
    }
  }

  /** From the state before stage i, the rest of the forward pass follows the protocol and, on success, leaves every stage run. */
  lemma {:induction false} ForwardFollowsProtocol(env: Env, source: string, i: nat, input: string, st: State)
    requires i < StageCount
    requires BeforeStage(RulesOf(env, source), i, input, st)
    ensures var o, r := Forward(env, i, input), RulesOf(env, source);
      && Replay(r, o.events, st).Some?
      && (o.result.Success? ==> AllRan(Replay(r, o.events, st).value))
    decreases StageCount - i
  {
    if EndsAt(env, i, input) {
      StageEndFollowsProtocol(env, source, i, input, st);
    } else {
      var r, s := RulesOf(env, source), StageAt(i);
      var out := env.behaviour(s, input).output;
      var built := LoadCreator(env, s).events + Build(i, input);
      var st3 := st[i := Ran(input)];
      StageFollowsProtocol(env, source, i, input, st);
      if i == StageCount - 1 {
        ReplayAppend(r, built, [Read(s, out)], st);
        ReplaySingle(r, Read(s, out), st3);
      } else {
        var rest := Forward(env, i + 1, out);
        NextStageReady(r, i, input, out, st);
        ForwardFollowsProtocol(env, source, i + 1, out, st3);
        ReplayAppend(r, built, rest.events, st);
      }
    }
  }

  /** Resolving destroy factories on open handles leaves the protocol state unchanged. */
  lemma {:induction false} LookupsFollowProtocol(env: Env, r: Rules, i: nat, st: State)
    requires i <= StageCount
    requires AllRan(st)
    ensures Replay(r, LookupDestroyers(env, i).events, st) == Some(st)
    decreases StageCount - i
  {
    if i < StageCount {
      var s := StageAt(i);
      var k := DestroyKind(s);
      var lk := LookupDestroyers(env, i);
      var ev := if Handle(env, s).Some? then [Lookup(s, k)] else [];
      if Handle(env, s).Some? {
        ReplaySingle(r, Lookup(s, k), st);
      }
      if CreateLibFunc(Handle(env, s), LibraryFile(s), SymbolOf(k), k).Success? {
        LookupsFollowProtocol(env, r, i + 1, st);
        ReplayAppend(r, ev, LookupDestroyers(env, i + 1).events, st);
      }
    }
  }

  /** Destroying stages i.. in order, all of which have run, leaves every instance destroyed. */
  lemma {:induction false} DestroysFollowProtocol(r: Rules, i: nat, st: State)
    requires i <= StageCount
    requires forall k :: 0 <= k < i ==> st[k] == Destroyed
    requires forall k :: i <= k < StageCount ==> st[k].Ran?
    ensures Replay(r, Destroys(i), st) == Some(Uniform(Destroyed))
    decreases StageCount - i
  {
    if i == StageCount {
      assert st == Uniform(Destroyed);
    } else {
      var st1 := st[i := Destroyed];
      ReplaySingle(r, Destroy(StageAt(i)), st);
      DestroysFollowProtocol(r, i + 1, st1);
      ReplayAppend(r, [Destroy(StageAt(i))], Destroys(i + 1), st);
    }
  }

  /** Closing stages i.. in order, once every instance is destroyed, leaves every handle closed. */
  lemma {:induction false} ClosesFollowProtocol(r: Rules, i: nat, st: State)
    requires i <= StageCount
    requires forall k :: 0 <= k < i ==> st[k] == Closed
    requires forall k :: i <= k < StageCount ==> st[k] == Destroyed
    ensures Replay(r, Closes(i), st) == Some(Uniform(Closed))
    decreases StageCount - i
  {
    if i == StageCount {
      assert st == Uniform(Closed);
    } else {
      var st1 := st[i := Closed];
      ReplaySingle(r, Close(StageAt(i)), st);
      ClosesFollowProtocol(r, i + 1, st1);
      ReplayAppend(r, [Close(StageAt(i))], Closes(i + 1), st);
    }
  }

  /** Teardown after a forward pass leaves every handle closed. */
  lemma {:induction false} TeardownFollowsProtocol(env: Env, r: Rules, st: State)
    requires AllRan(st)
    ensures Replay(r, Teardown(env).events, st).Some?
    ensures Teardown(env).result.Success? ==> Replay(r, Teardown(env).events, st) == Some(Uniform(Closed))
  {
    var lk := LookupDestroyers(env, 0);
    LookupsFollowProtocol(env, r, 0, st);
    if lk.result.Success? {
      DestroysFollowProtocol(r, 0, st);
      ClosesFollowProtocol(r, 0, Uniform(Destroyed));
      ReplayAppend(r, lk.events, Destroys(0), st);
      ReplayAppend(r, lk.events + Destroys(0), Closes(0), st);
    }
  }

  /** How a run's events and result are assembled from its forward pass, its teardown and the directory checks. */
  lemma {:induction false} WorkflowShape(env: Env, fs: FileSystem, inputDir: string)
    ensures var o, fwd, td := MapReduceWorkflow(env, fs, inputDir), Forward(env, 0, inputDir), Teardown(env);
      && (fwd.result.Failure? ==> o == fwd)
      && (fwd.result.Success? && td.result.Failure? ==> o == Partial(fwd.events + td.events, Failure(td.result.error)))
      && (fwd.result.Success? && td.result.Success? ==>
            var v := Verdict(fs, inputDir, fwd.result.value);
            && (v.Failure? ==> o == Partial(fwd.events + td.events, Failure(v.error)))
            && (v.Success? ==> o == Partial(fwd.events + td.events + [WriteMarker(fwd.result.value)], fwd.result)))
  {
  }

  /** A legal forward pass followed by a legal teardown, and the success marker once everything is closed. */
  lemma {:induction false} CompletedRunFollowsProtocol(r: Rules, fwd: seq<Event>, td: seq<Event>, st: State, out: string)
    requires Replay(r, fwd, Init) == Some(st)
    requires Replay(r, td, st) == Some(Uniform(Closed))
    ensures Replay(r, fwd + td, Init) == Some(Uniform(Closed))
    ensures Replay(r, fwd + td + [WriteMarker(out)], Init) == Some(Uniform(Closed))
  {
    ReplayAppend(r, fwd, td, Init);
    ReplayAppend(r, fwd + td, [WriteMarker(out)], Init);
    ReplaySingle(r, WriteMarker(out), Uniform(Closed));
  }

  /**
   * Every run, whatever its outcome, follows the lifecycle protocol; a
   * successful run ends with every handle closed.
   */
  lemma {:induction false} WorkflowFollowsProtocol(env: Env, fs: FileSystem, inputDir: string)
    ensures var o, r := MapReduceWorkflow(env, fs, inputDir), RulesOf(env, inputDir);
      && Legal(r, o.events)
      && (o.result.Success? ==> Replay(r, o.events, Init) == Some(Uniform(Closed)))
  {
    var r := RulesOf(env, inputDir);
    var fwd := Forward(env, 0, inputDir);
    WorkflowShape(env, fs, inputDir);
    assert BeforeStage(r, 0, inputDir, Init);
    ForwardFollowsProtocol(env, inputDir, 0, inputDir, Init);
    if fwd.result.Success? {
      var st := Replay(r, fwd.events, Init).value;
      var td := Teardown(env);
      TeardownFollowsProtocol(env, r, st);
      if td.result.Success? {
        CompletedRunFollowsProtocol(r, fwd.events, td.events, st, fwd.result.value);
      } else {
        ReplayAppend(r, fwd.events, td.events, Init);
      }
    }
  }

  // ---------------------------------------------------------------------------
  // What a run promises

  /** Errors raised while loading, resolving or running a stage. */
  predicate PipelineError(e: Error)
  {
    e.CannotLoadLibrary? || e.CannotLoadSymbol? || e.StageFailed?
  }

  /** Errors raised by the directory checks after teardown. */
  predicate CheckError(e: Error)
  {
    e.CannotListDirectory? || e.OutputDirectoryNotFound? || e.MissingFiles?
  }

  /** An event the forward pass may emit: anything but a destroy, a close or the marker. */
  predicate ForwardEvent(e: Event)
  {
    !e.Destroy? && !e.Close? && !e.WriteMarker?
  }

  predicate AllForward(t: seq<Event>)
  {
    forall j :: 0 <= j < |t| ==> ForwardEvent(t[j])
  }

  lemma {:induction false} AllForwardConcat(a: seq<Event>, b: seq<Event>)
    requires AllForward(a) && AllForward(b)
    ensures AllForward(a + b)
  {
    forall j | 0 <= j < |a + b| ensures ForwardEvent((a + b)[j]) {
      if j >= |a| {
        assert (a + b)[j] == b[j - |a|];
      }
    }
  }

  lemma {:induction false} StageEventKinds(env: Env, i: nat, input: string)
    requires i < StageCount
    ensures AllForward(LoadCreator(env, StageAt(i)).events + Build(i, input))
  {
    LoadEventKinds(env, StageAt(i));
    BuildEventKinds(i, input);
    AllForwardConcat(LoadCreator(env, StageAt(i)).events, Build(i, input));
  }

  lemma {:induction false} LoadEventKinds(env: Env, s: Stage)
    ensures AllForward(LoadCreator(env, s).events)
    ensures LoadCreator(env, s).result.Failure? ==> PipelineError(LoadCreator(env, s).result.error)
  {
    var load := LoadCreator(env, s);
    if Handle(env, s).Some? {
      assert load.events == [Open(s), Lookup(s, CreateKind(s))];
    } else {
      assert load.events == [OpenFailed(s)];
    }
  }

  lemma {:induction false} BuildEventKinds(i: nat, input: string)
    requires i < StageCount
    ensures AllForward(Build(i, input))
  {
  }

  /** A forward pass that ends at stage i itself emits only loads, creates, runs and reads, and fails with a pipeline error. */
  lemma {:induction false} StageEndEventKinds(env: Env, i: nat, input: string)
    requires i < StageCount && EndsAt(env, i, input)
    ensures AllForward(StageEnd(env, i, input).events)
    ensures StageEnd(env, i, input).result.Failure? && PipelineError(StageEnd(env, i, input).result.error)
  {
    var s := StageAt(i);
    var load := LoadCreator(env, s);
    if load.result.Success? {
      var b := env.behaviour(s, input);
      if b == CreateRaises {
        CreateEndKinds(env, i, input);
      } else if b == RunRaises || i == StageCount - 1 || ReadBeforeNextLoad(s) {
        StageEventKinds(env, i, input);
      } else {
        NextLoadEndKinds(env, i, input);
      }
    }
  }

  lemma {:induction false} CreateEndKinds(env: Env, i: nat, input: string)
    requires i < StageCount
    ensures AllForward(LoadCreator(env, StageAt(i)).events + Argument(i, input))
  {
    var load := LoadCreator(env, StageAt(i));
    assert AllForward(load.events);
    assert AllForward(Argument(i, input));
    AllForwardConcat(load.events, Argument(i, input));
  }

  lemma {:induction false} NextLoadEndKinds(env: Env, i: nat, input: string)
    requires i + 1 < StageCount
    ensures AllForward(LoadCreator(env, StageAt(i)).events + Build(i, input) + LoadCreator(env, StageAt(i + 1)).events)
    ensures var e := LoadCreator(env, StageAt(i + 1)).result; e.Failure? ==> PipelineError(e.error)
  {
    StageEventKinds(env, i, input);
    LoadEventKinds(env, StageAt(i + 1));
    AllForwardConcat(LoadCreator(env, StageAt(i)).events + Build(i, input), LoadCreator(env, StageAt(i + 1)).events);
  }

  /** The forward pass only loads, creates, runs and reads, and fails only with a pipeline error. */
  lemma {:induction false} ForwardEventKinds(env: Env, i: nat, input: string)
    requires i < StageCount
    ensures AllForward(Forward(env, i, input).events)
    ensures Forward(env, i, input).result.Failure? ==> PipelineError(Forward(env, i, input).result.error)
    decreases StageCount - i
  {
    if EndsAt(env, i, input) {
      StageEndEventKinds(env, i, input);
    } else {
      var s := StageAt(i);
      var out := env.behaviour(s, input).output;
      var built := LoadCreator(env, s).events + Build(i, input);
      StageEventKinds(env, i, input);
      if i == StageCount - 1 {
        AllForwardConcat(built, [Read(s, out)]);
      } else {
        ForwardEventKinds(env, i + 1, out);
        AllForwardConcat(built, Forward(env, i + 1, out).events);
      }
    }
  }

  /** No event of `t` reads the output of `s`. */
  predicate NoRead(t: seq<Event>, s: Stage)
  {
    forall j :: 0 <= j < |t| ==> !t[j].Read? || t[j].stage != s
  }

  lemma {:induction false} NoReadConcat(a: seq<Event>, b: seq<Event>, s: Stage)
    requires NoRead(a, s) && NoRead(b, s)
    ensures NoRead(a + b, s)
  {
    forall j | 0 <= j < |a + b| ensures !(a + b)[j].Read? || (a + b)[j].stage != s {
      if j >= |a| {
        assert (a + b)[j] == b[j - |a|];
      }
    }
  }

  /** Loading a library and its creator reads no stage's output. */
  lemma {:induction false} LoadReadsNothing(env: Env, s: Stage, t: Stage)
    ensures NoRead(LoadCreator(env, s).events, t)
  {
  }

  /** Stage i's argument is a read of the previous stage, never of stage i itself. */
  lemma {:induction false} ArgumentReadsNothingOwn(i: nat, input: string)
    requires i < StageCount
    ensures NoRead(Argument(i, input), StageAt(i))
  {
    if i > 0 {
      assert Ordinal(StageAt(i - 1)) != Ordinal(StageAt(i));
    }
  }

  /** Loading stage i and building it emits no read of stage i's own output, and ends with its run. */
  lemma {:induction false} BuiltReadsNothingOwn(env: Env, i: nat, input: string)
    requires i < StageCount
    ensures NoRead(LoadCreator(env, StageAt(i)).events + Argument(i, input), StageAt(i))
    ensures NoRead(LoadCreator(env, StageAt(i)).events + Build(i, input), StageAt(i))
    ensures var b := LoadCreator(env, StageAt(i)).events + Build(i, input); b[|b| - 1] == Run(StageAt(i))
  {
    var s, load := StageAt(i), LoadCreator(env, StageAt(i));
    var a, cr := Argument(i, input), [Create(s, input), Run(s)];
    LoadReadsNothing(env, s, s);
    ArgumentReadsNothingOwn(i, input);
    assert NoRead(cr, s);
    NoReadConcat(load.events, a, s);
    NoReadConcat(load.events + a, cr, s);
    assert load.events + Build(i, input) == load.events + a + cr;
  }

  /** A constructor that raises leaves the stage with no instance: it is neither created nor run, and its output is never read. */
  lemma {:induction false} CreateFailurePlacement(env: Env, i: nat, input: string)
    requires i < StageCount
    requires LoadCreator(env, StageAt(i)).result.Success? && env.behaviour(StageAt(i), input) == CreateRaises
    ensures var s, o := StageAt(i), Forward(env, i, input);
      && o.result == Failure(StageFailed(s))
      && Create(s, input) !in o.events && Run(s) !in o.events && NoRead(o.events, s)
  {
    var s, load := StageAt(i), LoadCreator(env, StageAt(i));
    BuiltReadsNothingOwn(env, i, input);
    var ev := load.events + Argument(i, input);
    assert Forward(env, i, input).events == ev;
    forall j | 0 <= j < |ev| ensures !ev[j].Create? && !ev[j].Run? {
      if j >= |load.events| {
        assert ev[j] == Argument(i, input)[j - |load.events|];
      }
    }
  }

  /** A run that raises ends the forward pass right after the run call, with the stage's output never read. */
  lemma {:induction false} RunFailurePlacement(env: Env, i: nat, input: string)
    requires i < StageCount
    requires LoadCreator(env, StageAt(i)).result.Success? && env.behaviour(StageAt(i), input) == RunRaises
    ensures var s, o := StageAt(i), Forward(env, i, input);
      o.result == Failure(StageFailed(s)) && o.events[|o.events| - 1] == Run(s) && NoRead(o.events, s)
  {
    BuiltReadsNothingOwn(env, i, input);
  }

  /**
   * An output getter that raises ends the forward pass right after the run
   * for the last stage and for stages whose output the source reads before
   * loading the next library; for the shuffler and the reducer it ends it
   * after the next library has been opened and its creator looked up. The
   * output is never read.
   */
  lemma {:induction false} OutputFailurePlacement(env: Env, i: nat, input: string)
    requires i < StageCount
    requires LoadCreator(env, StageAt(i)).result.Success? && env.behaviour(StageAt(i), input) == OutputRaises
    ensures var s, o := StageAt(i), Forward(env, i, input);
      && NoRead(o.events, s)
      && (i == StageCount - 1 || ReadBeforeNextLoad(s) ==>
            o.result == Failure(StageFailed(s)) && o.events[|o.events| - 1] == Run(s))
      && (i < StageCount - 1 && !ReadBeforeNextLoad(s) ==>
            var next := StageAt(i + 1);
            && Run(s) in o.events
            && (Handle(env, next).Some? ==> Open(next) in o.events && Lookup(next, CreateKind(next)) in o.events)
            && (LoadCreator(env, next).result.Success? ==> o.result == Failure(StageFailed(s))))
  {
    var s := StageAt(i);
    BuiltReadsNothingOwn(env, i, input);
    if i < StageCount - 1 && !ReadBeforeNextLoad(s) {
      var built := LoadCreator(env, s).events + Build(i, input);
      assert Forward(env, i, input).events == built + LoadCreator(env, StageAt(i + 1)).events;
      NextLoadPlacement(env, i, input);
    }
  }

  /** After stage i is built, loading the next stage's creator reads nothing of stage i and follows its run. */
  lemma {:induction false} NextLoadPlacement(env: Env, i: nat, input: string)
    requires i + 1 < StageCount
    ensures var s, nx := StageAt(i), StageAt(i + 1);
      var t := LoadCreator(env, s).events + Build(i, input) + LoadCreator(env, nx).events;
      && NoRead(t, s)
      && Run(s) in t
      && (Handle(env, nx).Some? ==> Open(nx) in t && Lookup(nx, CreateKind(nx)) in t)
  {
    var s, nx := StageAt(i), StageAt(i + 1);
    var built := LoadCreator(env, s).events + Build(i, input);
    var next := LoadCreator(env, nx);
    BuiltReadsNothingOwn(env, i, input);
    LoadReadsNothing(env, nx, s);
    NoReadConcat(built, next.events, s);
    assert (built + next.events)[|built| - 1] == Run(s);
    if Handle(env, nx).Some? {
      assert (built + next.events)[|built|] == Open(nx);
      assert (built + next.events)[|built| + 1] == Lookup(nx, CreateKind(nx));
    }
  }

  /** Every event of `t` is a symbol lookup. */
  predicate LookupsOnly(t: seq<Event>)
  {
    forall j :: 0 <= j < |t| ==> t[j].Lookup?
  }

  /** Resolving the destroyers only looks symbols up, and fails only with a loader error. */
  lemma {:induction false} LookupEventKinds(env: Env, i: nat)
    requires i <= StageCount
    ensures LookupsOnly(LookupDestroyers(env, i).events)
    ensures var lk := LookupDestroyers(env, i);
      lk.result.Failure? ==> lk.result.error.CannotLoadLibrary? || lk.result.error.CannotLoadSymbol?
    decreases StageCount - i
  {
    if i < StageCount {
      LookupEventKinds(env, i + 1);
    }
  }

  lemma {:induction false} DestroysAndClosesKinds(i: nat)
    requires i <= StageCount
    ensures forall j :: 0 <= j < |Destroys(i)| ==> Destroys(i)[j].Destroy?
    ensures forall j :: 0 <= j < |Closes(i)| ==> Closes(i)[j].Close?
    decreases StageCount - i
  {
    if i < StageCount {
      DestroysAndClosesKinds(i + 1);
    }
  }

  /** No event of `t` writes the success marker. */
  predicate NoMarker(t: seq<Event>)
  {
    forall j :: 0 <= j < |t| ==> !t[j].WriteMarker?
  }

  lemma {:induction false} NoMarkerConcat(a: seq<Event>, b: seq<Event>)
    requires NoMarker(a) && NoMarker(b)
    ensures NoMarker(a + b)
  {
    forall j | 0 <= j < |a + b| ensures !(a + b)[j].WriteMarker? {
      if j >= |a| {
        assert (a + b)[j] == b[j - |a|];
      }
    }
  }

  /** Teardown never writes the marker; when it fails, it has only looked symbols up, so nothing has been destroyed or closed. */
  lemma {:induction false} TeardownEventKinds(env: Env)
    ensures NoMarker(Teardown(env).events)
    ensures Teardown(env).result.Failure? ==> PipelineError(Teardown(env).result.error) && AllForward(Teardown(env).events)
    ensures Teardown(env).result.Failure? ==> forall j :: 0 <= j < |Teardown(env).events| ==> Teardown(env).events[j].Lookup?
  {
    var lk := LookupDestroyers(env, 0);
    LookupEventKinds(env, 0);
    assert NoMarker(lk.events) && AllForward(lk.events);
    if lk.result.Success? {
      TailKinds();
      NoMarkerConcat(lk.events, Destroys(0) + Closes(0));
      assert lk.events + Destroys(0) + Closes(0) == lk.events + (Destroys(0) + Closes(0));
    }
  }

  lemma {:induction false} TailKinds()
    ensures NoMarker(Destroys(0) + Closes(0))
  {
    DestroysAndClosesKinds(0);
    assert NoMarker(Destroys(0));
    assert NoMarker(Closes(0));
    NoMarkerConcat(Destroys(0), Closes(0));
  }

  /**
   * The success decision: a run succeeds only when the input and final
   * output directories hold the same regular-file base names; once all
   * seven stages have run and been torn down, that equality is also enough,
   * and any mismatch fails the run with "There are missing files!".
   */
  lemma {:induction false} SuccessDecision(env: Env, fs: FileSystem, inputDir: string)
    ensures var o := MapReduceWorkflow(env, fs, inputDir);
      o.result.Success? ==>
        && o.result == Forward(env, 0, inputDir).result
        && inputDir in fs && o.result.value in fs
        && RegularNames(fs[inputDir]) == RegularNames(fs[o.result.value])
    ensures var o, fwd := MapReduceWorkflow(env, fs, inputDir), Forward(env, 0, inputDir);
      fwd.result.Success? && Teardown(env).result.Success? ==>
        var out := fwd.result.value;
        && (o.result.Success? <==> inputDir in fs && out in fs && RegularNames(fs[inputDir]) == RegularNames(fs[out]))
        && (inputDir !in fs ==> o.result == Failure(CannotListDirectory(inputDir)))
        && (inputDir in fs && out !in fs ==> o.result == Failure(OutputDirectoryNotFound(out)))
        && (inputDir in fs && out in fs && RegularNames(fs[inputDir]) != RegularNames(fs[out]) ==> o.result == Failure(MissingFiles))
  {
    WorkflowShape(env, fs, inputDir);
    ForwardEventKinds(env, 0, inputDir);
    TeardownEventKinds(env);
  }

  /** SUCCESS.ind is written only as the last event of a successful run, into the final output directory. */
  lemma {:induction false} MarkerOnlyOnSuccess(env: Env, fs: FileSystem, inputDir: string)
    ensures var o := MapReduceWorkflow(env, fs, inputDir);
      && (forall j :: 0 <= j < |o.events| && o.events[j].WriteMarker? ==>
            j == |o.events| - 1 && o.result == Success(o.events[j].dir))
      && (o.result.Success? ==> |o.events| > 0 && o.events[|o.events| - 1] == WriteMarker(o.result.value))
  {
    WorkflowShape(env, fs, inputDir);
    ForwardEventKinds(env, 0, inputDir);
    TeardownEventKinds(env);
    var fwd, td := Forward(env, 0, inputDir), Teardown(env);
    assert NoMarker(fwd.events);
    NoMarkerConcat(fwd.events, td.events);
  }

  /**
   * No cleanup on failure: a run that fails while loading, resolving or
   * running a stage has destroyed no instance, closed no handle and written
   * no marker.
   */
  lemma {:induction false} PipelineFailureLeaks(env: Env, fs: FileSystem, inputDir: string)
    ensures var o := MapReduceWorkflow(env, fs, inputDir);
      o.result.Failure? && PipelineError(o.result.error) ==>
        forall j :: 0 <= j < |o.events| ==> !o.events[j].Destroy? && !o.events[j].Close? && !o.events[j].WriteMarker?
  {
    WorkflowShape(env, fs, inputDir);
    ForwardEventKinds(env, 0, inputDir);
    TeardownEventKinds(env);
    var fwd, td := Forward(env, 0, inputDir), Teardown(env);
    if fwd.result.Success? && td.result.Failure? {
      AllForwardConcat(fwd.events, td.events);
    }
  }

  /** A run that fails in the directory checks has already destroyed every instance and closed every handle. */
  lemma {:induction false} CheckFailureClosed(env: Env, fs: FileSystem, inputDir: string)
    ensures var o := MapReduceWorkflow(env, fs, inputDir);
      o.result.Failure? && CheckError(o.result.error) ==>
        Replay(RulesOf(env, inputDir), o.events, Init) == Some(Uniform(Closed))
  {
    WorkflowShape(env, fs, inputDir);
    ForwardEventKinds(env, 0, inputDir);
    TeardownEventKinds(env);
    var fwd, td := Forward(env, 0, inputDir), Teardown(env);
    var r := RulesOf(env, inputDir);
    if fwd.result.Success? && td.result.Success? {
      assert BeforeStage(r, 0, inputDir, Init);
      ForwardFollowsProtocol(env, inputDir, 0, inputDir, Init);
      var st := Replay(r, fwd.events, Init).value;
      TeardownFollowsProtocol(env, r, st);
      CompletedRunFollowsProtocol(r, fwd.events, td.events, st, fwd.result.value);
    }
  }

  /**
   * The lifecycle of every run, whatever its outcome: each library is
   * opened, each instance run, destroyed and each handle closed at most
   * once; instances are created in pipeline order, the first from the
   * input directory and each later one from its predecessor's output;
   * outputs are read only after their stage has run; every destroy comes
   * before every close, and a handle is closed only after its own instance
   * was destroyed.
   */
  lemma {:induction false} RunLifecycle(env: Env, fs: FileSystem, inputDir: string)
    ensures var t := MapReduceWorkflow(env, fs, inputDir).events;
      && (forall s :: multiset(t)[Open(s)] <= 1 && multiset(t)[Run(s)] <= 1)
      && (forall s :: multiset(t)[Destroy(s)] <= 1 && multiset(t)[Close(s)] <= 1)
      && (forall i, j :: 0 <= i < j < |t| && t[i].Create? && t[j].Create? ==> Ordinal(t[i].stage) < Ordinal(t[j].stage))
      && (forall j :: 0 <= j < |t| && t[j].Create? && t[j].stage == InputReader ==> t[j].input == inputDir)
      && (forall j :: 0 <= j < |t| && t[j].Create? && t[j].stage != InputReader ==>
            exists u :: Create(Prev(t[j].stage), u) in t[..j] && env.behaviour(Prev(t[j].stage), u) == Exposes(t[j].input))
      && (forall j :: 0 <= j < |t| && t[j].Read? ==> Run(t[j].stage) in t[..j])
      && (forall j :: 0 <= j < |t| && t[j].Lookup? ==> Open(t[j].stage) in t[..j])
      && (forall i, j :: 0 <= i < j < |t| && t[i].Close? ==> !t[j].Destroy?)
      && (forall j :: 0 <= j < |t| && t[j].Close? ==> Destroy(t[j].stage) in t[..j])
  {
    WorkflowFollowsProtocol(env, fs, inputDir);
    TraceLifecycle(env, inputDir, MapReduceWorkflow(env, fs, inputDir).events);
  }

  /** The lifecycle facts of RunLifecycle, for any trace legal under a run's protocol. */
  lemma {:induction false} TraceLifecycle(env: Env, inputDir: string, t: seq<Event>)
    requires Legal(RulesOf(env, inputDir), t)
    ensures
      && (forall s :: multiset(t)[Open(s)] <= 1 && multiset(t)[Run(s)] <= 1)
      && (forall s :: multiset(t)[Destroy(s)] <= 1 && multiset(t)[Close(s)] <= 1)
      && (forall i, j :: 0 <= i < j < |t| && t[i].Create? && t[j].Create? ==> Ordinal(t[i].stage) < Ordinal(t[j].stage))
      && (forall j :: 0 <= j < |t| && t[j].Create? && t[j].stage == InputReader ==> t[j].input == inputDir)
      && (forall j :: 0 <= j < |t| && t[j].Create? && t[j].stage != InputReader ==>
            exists u :: Create(Prev(t[j].stage), u) in t[..j] && env.behaviour(Prev(t[j].stage), u) == Exposes(t[j].input))
      && (forall j :: 0 <= j < |t| && t[j].Read? ==> Run(t[j].stage) in t[..j])
      && (forall j :: 0 <= j < |t| && t[j].Lookup? ==> Open(t[j].stage) in t[..j])
      && (forall i, j :: 0 <= i < j < |t| && t[i].Close? ==> !t[j].Destroy?)
      && (forall j :: 0 <= j < |t| && t[j].Close? ==> Destroy(t[j].stage) in t[..j])
  {
    var r := RulesOf(env, inputDir);
    LegalTraceOrdering(r, t);
    EventsFollowPrerequisites(r, t);
    InputsChain(r, t);
  }

  /**
   * A successful run opened the seven libraries, created and ran the seven
   * instances, destroyed them and closed the seven handles, each exactly once.
   */
  lemma {:induction false} SuccessLifecycle(env: Env, fs: FileSystem, inputDir: string)
    ensures var o := MapReduceWorkflow(env, fs, inputDir);
      o.result.Success? ==>
        && (forall s :: multiset(o.events)[Open(s)] == 1 && multiset(o.events)[Run(s)] == 1)
        && (forall s :: multiset(o.events)[Destroy(s)] == 1 && multiset(o.events)[Close(s)] == 1)
        && (forall s :: HasCreate(o.events, s))
        && (forall i, j :: 0 <= i < j < |o.events| && o.events[i].Create? && o.events[j].Create? ==> o.events[i].stage != o.events[j].stage)
  {
    var o := MapReduceWorkflow(env, fs, inputDir);
    WorkflowFollowsProtocol(env, fs, inputDir);
    if o.result.Success? {
      CompleteTraceCounts(RulesOf(env, inputDir), o.events);
      CompleteTraceCreates(RulesOf(env, inputDir), o.events);
    }
  }
}

=== FILE: wrappers.dfy ===
/** Failure-carrying values used throughout the model in place of C++ exceptions. */
module Wrappers {

  datatype Option<+T> = None | Some(value: T)

  /** The outcome of an operation that either produces a value or raises an error. */
  datatype Result<+T, +E> = Success(value: T) | Failure(error: E)
}
